=== FILE: README.md ===
# THRML leaderboard core, modelled in Dafny

This project models the pure logic of the THRML sampler leaderboard: the validation script
that marks Pareto-optimal benchmark records with a `"frontier"` badge, and the two scripts of
the static scoreboard page. The page script filters the records and fills the dropdowns. The
chart script turns the filtered records into chart series.

Modules, one per concept of the system:

- `Wrappers`: the `Option` type used for every JSON field that may be absent.
- `Seqs`: the order-preserving subsequence relation, the `filter` combinator and
  first-occurrence deduplication (a JavaScript `Set`).
- `Strings`: the JavaScript string operations the page relies on. These are the default
  `sort()` order (`LexLess`), `includes` (`Contains`), `trim`, `split` and `join`.
- `Records`: the benchmark record, with `config`, `metrics_mean`, `scaling` and `J_sweep`
  optional. The safe accessors give an absent nested object the same default as an absent
  field (`entry.config?.blocking || ""` and similar).
- `Vocabulary`: `uniqueSorted` and the task and blocking dropdowns built from it.
- `Filters`: the keep/drop test of `applyFilters`. The six filter controls are one immutable
  `FilterState` value.
- `BadgeFormat`: the Badges column. The mutator joins the badge list into a cell and
  `badgeFormatter` splits it again and picks a style class per badge.
- `Series`: the series builders of `renderScaling` and `renderJSweep` with their shared label,
  the scatter's null filter and the marker stroke-width rule.
- `Pareto`: `pareto_front`. It is a sort by `(x, -y)`, written as an insertion sort proved
  stable (points with equal coordinates keep their input order, as Python's `sorted` does),
  followed by a scan that keeps every point above the running best y.
- `FrontierBadges`: the bucket pass of the validation script. It groups records by
  `(task, hardware_class)`, takes each bucket's front and appends the badges.

The front as written keeps, among points sorted by ascending x, those whose y beats every
earlier point. A point is on it exactly when no input point has smaller x and larger-or-equal
y, no input point has equal x and larger y, and no earlier input point has the same
coordinates: of several points at one position only the earliest is kept
(`Pareto.ParetoFrontExact`, `Pareto.TiedPointsKeepTheEarlier`).
A point with larger x and smaller y than a front point is not on the front.

## Model

| member | source | states |
|---|---|---|
| Vocabulary.UniqueSorted | site/js/scoreboard.js:12-14 | The dropdown values are strictly ascending in the default string order, so they hold no duplicate. A string is listed exactly when it occurs as a present, non-empty input value. |
| Vocabulary.SortStrings | site/js/scoreboard.js:13 | `sort()` returns a sorted permutation of its input and keeps it duplicate-free. |
| Vocabulary.UniqueSortedDependsOnlyOnValues | site/js/scoreboard.js:13 | Two value lists with the same non-empty present values give the same dropdown. |
| Vocabulary.UniqueSortedPermutationInvariant | site/js/scoreboard.js:13 | Reordering the records never changes a dropdown. |
| Vocabulary.StrictlySortedUnique | site/js/scoreboard.js:13 | A strictly ascending list is determined by its set of elements, so the sorted dropdown is unique. |
| Vocabulary.TaskOptions | site/js/scoreboard.js:52 | The task dropdown is strictly ascending and lists exactly the non-empty tasks some record has. |
| Vocabulary.BlockingOptions | site/js/scoreboard.js:53 | The blocking dropdown is strictly ascending and lists exactly the non-empty `config.blocking` values. A record without `config` contributes nothing. |
| Filters.ApplyFilters | site/js/scoreboard.js:24-49 | A record is kept exactly when it is in the input and passes the test. A kept record has the selected task and hardware class, and its blocking (`""` without `config`) equals the selected one. With "frontier only" it has a badge containing `"frontier"`. With "needs scaling" its chain list has at least 2 entries, and with "needs J sweep" its `J_sweep` does. |
| Filters.MatchesIffAllActiveSatisfied | site/js/scoreboard.js:32-47 | The early-return chain accepts a record exactly when it satisfies every constraint whose control is set. The order of the checks does not matter. |
| Filters.ApplyFiltersSnoc | site/js/scoreboard.js:32-48 | The result is exact, duplicates included: an empty list keeps nothing, and a record appended to the input is appended to the result exactly when it passes the test. |
| Filters.ApplyFiltersIsSubsequence | site/js/scoreboard.js:32-48 | The filtered list is an order-preserving subsequence of the input. |
| Filters.ApplyFiltersIdempotent | site/js/scoreboard.js:32-48 | Filtering an already filtered list with the same controls changes nothing. |
| Filters.NoFilterKeepsAll | site/js/scoreboard.js:25-47 | With every control neutral, every record is kept in order. |
| Filters.TighterFilterKeepsSubsequence | site/js/scoreboard.js:33-46 | Setting more controls yields a subsequence of what fewer controls yield. |
| BadgeFormat.BadgeClass | site/js/scoreboard.js:76-80 | The class is the first of frontier, scales, robust, quality that the badge contains. It is `""` exactly when the badge contains none of them. |
| BadgeFormat.FormatBadges | site/js/scoreboard.js:72-84 | Every span shows a non-empty, trimmed, comma-free substring of the cell, classed by its family. Every comma-separated piece that is non-empty after trimming gets a span. |
| BadgeFormat.FormatBadgesFromPieces | site/js/scoreboard.js:73-84 | Every span text is the trim of a comma-separated piece. The span texts, in order, are a subsequence of the trimmed pieces. There are exactly as many spans as pieces that are non-empty after trimming. |
| BadgeFormat.FormatBadgeCellRoundTrip | site/js/scoreboard.js:73-105 | Joining a list of non-empty, trimmed, comma-free badges with `", "` and formatting the cell gives one span per badge, in list order. |
| BadgeFormat.EmittedBadgeClasses | site/js/scoreboard.js:76-80 | The five badges the validation script emits get the frontier, frontier, scales, robust and quality classes. |
| Series.LabelHead | site/js/charts.js:110 | The label head is `recipe_name` when non-empty, else `method` when non-empty, else `"recipe"`. It is never empty. |
| Series.SameLabelIff | site/js/charts.js:110 | When neither head contains the bullet, two records get the same label (and so the same line colour) exactly when their heads and hardware texts agree. |
| Series.LabelFallsBackToMethod | site/js/charts.js:110-125 | A record with an absent or empty recipe name and a non-empty method is labelled `method • hardware` on every scaling and J-sweep point. |
| Series.ScalingPoints | site/js/charts.js:104-114 | A record with at least 2 chain counts and an ESS list of equal length gives one point per chain count. Point i pairs `chains_list[i]` with `ESS_per_sec_list[i]`. Any other record gives no point. |
| Series.RenderScaling | site/js/charts.js:101-116 | The nested loops produce each record's points in record order, and every point stems from a validly paired input record. |
| Series.ScalingSeriesAppend | site/js/charts.js:103-115 | The series of a concatenation is the concatenation of the series, so output order follows record order. |
| Series.ScalingSeriesOrigin | site/js/charts.js:103-115 | Every scaling point belongs to the points of some validly paired input record. |
| Series.ScalingSeriesEmpty | site/js/charts.js:104-107 | A record list without a validly paired record gives an empty scaling series. |
| Series.SweepPoints | site/js/charts.js:123-128 | A record gives one point per `J_sweep` entry, carrying that entry's `J` and ESS/sec. An absent `J_sweep` gives none. |
| Series.RenderJSweep | site/js/charts.js:120-130 | The loops produce each record's points in record order, and the total is the number of sweep entries. |
| Series.SweepSeriesAppend | site/js/charts.js:122-129 | The J-sweep series of a concatenation is the concatenation of the series. |
| Series.SweepSeriesOrigin | site/js/charts.js:122-129 | Every J-sweep point belongs to the points of some input record. |
| Series.ScatterData | site/js/charts.js:10 | The scatter draws exactly the records with `metrics_mean` and a present `ESS_per_sec_calc`, never more than the input. |
| Series.ScatterDataIsSubsequence | site/js/charts.js:8-10 | The scatter keeps the input order. |
| Series.StrokeWidth | site/js/charts.js:42-48 | The width is 3.0 exactly when the badges hold `"frontier_breaker"`. It is 1.8 exactly when they hold `"frontier"` but not the breaker, and 0.6 otherwise. |
| Series.EmphasisedMarkersPassFrontierFilter | site/js/charts.js:42-48 | Every marker drawn wider than 0.6 belongs to a record the "frontier only" filter keeps. |
| Series.StrokeWidthMonotone | site/js/charts.js:42-48 | Adding badges never makes a marker's stroke thinner. |
| Pareto.SortByKey | scripts/validate_results.py:31 | The sort returns a permutation of the points ordered by ascending x, with larger y first among equal x. It is stable: the points at any one position appear in their input order. |
| Pareto.ParetoFront | scripts/validate_results.py:30-37 | The scan returns a subsequence of the sorted points that is never longer than the input. It is empty exactly when the input is. It starts with the first sorted point, and every front point is an input point. x never decreases and y strictly increases along it. Its best y is the input's best y. |
| Pareto.BeatsMaxIffAboveAll | scripts/validate_results.py:32-34 | A point beats the running best (initially minus infinity) exactly when its y is above every earlier y. |
| Pareto.FrontIsSubsequence | scripts/validate_results.py:31-36 | The front is an order-preserving subsequence of the sorted points. |
| Pareto.FrontXAscending | scripts/validate_results.py:31-36 | On key-sorted input, x never decreases along the front. |
| Pareto.FrontStartsWithFirst | scripts/validate_results.py:32-36 | A non-empty input's front starts with its first point. |
| Pareto.FrontKeepsMaxY | scripts/validate_results.py:33-36 | The best y on the front equals the best y of the whole input. |
| Pareto.SortKeepsMaxY | scripts/validate_results.py:31 | Sorting does not change the best y. |
| Pareto.FrontDominates | scripts/validate_results.py:33-36 | Every point off the front has a y no larger than that of a front point at or before it. |
| Pareto.FrontIsRecordHighs | scripts/validate_results.py:33-36 | The front holds exactly the points whose y is above every earlier y. |
| Pareto.ParetoFrontSound | scripts/validate_results.py:30-37 | A front point has no input point with smaller x and larger-or-equal y, nor one with equal x and larger y. It is the earliest input point at its coordinates. |
| Pareto.ParetoFrontComplete | scripts/validate_results.py:30-37 | An input point with no such dominating point that is the earliest at its coordinates is on the front. |
| Pareto.ParetoFrontExact | scripts/validate_results.py:30-37 | A point is on the front exactly when it is undominated and is the earliest input point at its coordinates. |
| Pareto.TiedPointsKeepTheEarlier | scripts/validate_results.py:31-36 | Of several input points at the same coordinates, every one but the earliest is off the front. |
| FrontierBadges.BucketPoints | scripts/validate_results.py:83-92 | A bucket's points come from records with the bucket's key, carry those records' coordinates, and are in increasing record order. |
| FrontierBadges.BucketPointsComplete | scripts/validate_results.py:83-92 | Every record with the bucket's key contributes its point to the bucket. |
| FrontierBadges.FrontierPass | scripts/validate_results.py:83-103 | The bucket loop changes only badge lists. It appends `"frontier"` exactly to the records on their own bucket's front, keeps earlier badges in order, and creates the list when absent. |
| FrontierBadges.BreakerNeverFires | scripts/validate_results.py:95-103 | No record reaches 1.10 times its bucket front's best ESS/sec while that best is positive, so `"frontier_breaker"` is never appended. |
| FrontierBadges.BadgedAppendsOnlyFrontier | scripts/validate_results.py:97-103 | A visited record differs from the input only in its badge list, which gains `"frontier"` exactly when the record is on its bucket's front. |
| FrontierBadges.EveryBucketHasFrontier | scripts/validate_results.py:88-101 | Every bucket has at least one record on its front. |
| FrontierBadges.FrontierRecordUndominated | scripts/validate_results.py:88-101 | A record with `"frontier"` has no bucket mate with lower throughput and higher-or-equal ESS/sec, nor one with equal throughput and higher ESS/sec. No earlier bucket mate has its throughput and ESS/sec. |
| FrontierBadges.UndominatedRecordOnFront | scripts/validate_results.py:88-101 | A record with no such bucket mate and no earlier bucket mate at its throughput and ESS/sec gets `"frontier"`. |
| FrontierBadges.FrontierFilterAfterPass | scripts/validate_results.py:97-101 | After the pass, the "frontier only" filter keeps a record exactly when it is on its bucket's front or already had a badge containing `"frontier"`. |
| FrontierBadges.FrontRecordsEmphasised | scripts/validate_results.py:100-101 | After the pass, every front record is drawn with a stroke of at least 1.8. |

## Left out

- Fetching `results.json`, every DOM access and the construction of option elements. The filter
  controls are a `FilterState` value and the dropdowns are returned as lists.
- The Tabulator table, its column configuration and the row-click link. Only the Badges
  column's mutator and formatter are modelled.
- The async `sync`/`main` orchestration and its error logging. The page calls the filter and the
  renderers in sequence, and each is modelled on its own.
- The Vega-Lite specifications and `vegaEmbed` calls. Only the scatter's null filter and the
  stroke-width rule are taken from them. The scaling chart's own `datum.chains &&
  datum.ESS_per_sec` filter, which hides zero values, is not modelled.
- BadgeFormat.FormatBadges: returns the spans as values; the HTML string with its
  `<span class="badge ...">` markup and the `" "` join is not built.
- Series.Label: an absent hardware class is rendered as `"undefined"`, as a template literal
  does. A JSON `null` is not distinguished from an absent field.
- Strings.LexLess: compares Unicode scalar values, whereas JavaScript's `sort()` compares UTF-16
  code units. The two orders differ only for strings with characters above U+FFFF.
- Numbers are mathematical reals. Floating-point rounding, NaN and infinities are not modelled,
  and the breaker factor 1.10 is exact.
- FrontierBadges.BreakerNeverFires: holds for reals. With floats, a subnormal `max_y` could make
  `1.10 * max_y` round down to `max_y`, which the model cannot express.
- The numeric parts of the validation script are not modelled. These are the autocorrelation
  time and ESS recomputation, the mismatch warnings, the least-squares scaling slope and
  `scales_well`, `robust_highJ` and `quality_jump`. The model assumes ESS/sec has already been
  recomputed for every record, and that schema validation guarantees `task`, `hardware_class`,
  `metrics_mean` and `samples_per_sec` are present, since the frontier loop reads them directly
  (`FrontierBadges.Validated`).
- Schema validation, file discovery, JSON reading and writing, and the scoreboard build
  script, which only copies a file.
- Record fields the core never reads (contributor, commit, URLs, `rho1`, `tau_int`) are not
  represented.
- The hardware dropdown: the page never fills it from the data, so it has no option list here.

=== FILE: badge_format.dfy ===
/** The Badges column of the scoreboard table: the mutator that joins a record's badge list
    into one cell string, and `badgeFormatter`, which splits the cell again and picks a style
    class for every badge. */
module BadgeFormat {
  import opened Wrappers
  import opened Seqs
  import opened Strings

  /** One rendered `<span class="badge CLS">TEXT</span>`. */
  datatype Span = Span(cls: string, text: string)

  /** The style families in precedence order. */
  const Families: seq<string> := ["frontier", "scales", "robust", "quality"]

  /** The class of one badge: the first family it contains, or "" when it contains none. */
  function BadgeClass(badge: string): (cls: string)
    ensures cls == "" <==> forall k :: 0 <= k < |Families| ==> !Contains(badge, Families[k])
    ensures cls != "" ==>
      exists k :: 0 <= k < |Families| && cls == Families[k] && Contains(badge, Families[k])
        && forall j :: 0 <= j < k ==> !Contains(badge, Families[j])
  {
    assert Families[0] == "frontier" && Families[1] == "scales";
    assert Families[2] == "robust" && Families[3] == "quality";
    if Contains(badge, "frontier") then "frontier"
    else if Contains(badge, "scales") then "scales"
    else if Contains(badge, "robust") then "robust"
    else if Contains(badge, "quality") then "quality"
    else ""
  }

  /** The column mutator `(value || []).join(", ")`. */
  function BadgeCell(badges: Option<seq<string>>): string {
    Join(badges.GetOr([]), ", ")
  }

  /** `.map(b => b.trim())`. */
  function TrimAll(pieces: seq<string>): (r: seq<string>)
    ensures |r| == |pieces|
    ensures forall k :: 0 <= k < |r| ==> r[k] == Trim(pieces[k])
  {
    seq(|pieces|, k requires 0 <= k < |pieces| => Trim(pieces[k]))
  }

  /** One span per badge, classed by `BadgeClass`. */
  function ToSpans(badges: seq<string>): (spans: seq<Span>)
    ensures |spans| == |badges|
    ensures forall k :: 0 <= k < |spans| ==> spans[k] == Span(BadgeClass(badges[k]), badges[k])
    ensures forall s :: s in spans ==> s.text in badges && s.cls == BadgeClass(s.text)
  {
    var spans := seq(|badges|, k requires 0 <= k < |badges| => Span(BadgeClass(badges[k]), badges[k]));
    assert forall s :: s in spans ==> exists k :: 0 <= k < |badges| && s == spans[k];
    spans
  }

  /** The badge texts of a cell: split at commas, trimmed, empty pieces dropped. */
  function CellBadges(cell: string): seq<string> {
    Filter(TrimAll(Split(cell, ',')), b => b != "")
  }

  /** Every badge read back from a cell is a non-empty, trimmed, comma-free piece of it. */
  lemma {:induction false} CellBadgesWellFormed(cell: string)
    ensures forall b :: b in CellBadges(cell) ==>
      b != "" && IsTrimmed(b) && ',' !in b && Contains(cell, b)
  {
    var pieces := Split(cell, ',');
    SplitPiecesLackSeparator(cell, ',', "");
    SplitPiecesAreInfixes(cell, ',', "");
    assert "" + cell == cell;
    forall b | b in CellBadges(cell)
      ensures ',' !in b && Contains(cell, b)
    {
      var k :| 0 <= k < |pieces| && b == Trim(pieces[k]);
      ContainsTransitive(cell, pieces[k], b);
      if ',' in b {
        ContainsMember(pieces[k], b, ',');
      }
    }
  }

  /** A character of an infix is a character of the whole. */
  lemma {:induction false} ContainsMember(s: string, sub: string, c: char)
    requires Contains(s, sub) && c in sub
    ensures c in s
  {
    var i :| 0 <= i <= |s| && OccursAt(s, sub, i);
    var k :| 0 <= k < |sub| && sub[k] == c;
    assert s[i..i + |sub|][k] == s[i + k];
  }

  /** `badgeFormatter`: one span per badge of the cell, in cell order. Every span shows a
      non-empty, trimmed, comma-free piece of the cell, classed by its family. */
  function FormatBadges(cell: string): (spans: seq<Span>)
    ensures forall s :: s in spans ==>
      && s.text != ""
      && IsTrimmed(s.text)
      && ',' !in s.text
      && Contains(cell, s.text)
      && s.cls == BadgeClass(s.text)
    ensures forall piece :: piece in Split(cell, ',') && Trim(piece) != "" ==>
      Span(BadgeClass(Trim(piece)), Trim(piece)) in spans
  {
    CellBadgesWellFormed(cell);
    CellBadgesComplete(cell);
    ToSpans(CellBadges(cell))
  }

  /** The spans of a cell show, in cell order, exactly the comma-separated pieces that are
      non-empty once trimmed: every span text is a trimmed piece, the texts are a subsequence
      of the trimmed pieces, and there are as many spans as non-blank pieces. */
  lemma {:induction false} FormatBadgesFromPieces(cell: string)
    ensures forall s :: s in FormatBadges(cell) ==>
      exists piece :: piece in Split(cell, ',') && s.text == Trim(piece)
    ensures SubSeq(SpanTexts(FormatBadges(cell)), TrimAll(Split(cell, ',')))
    ensures |FormatBadges(cell)| == NonBlankCount(Split(cell, ','))
  {
    var pieces := Split(cell, ',');
    var badges := CellBadges(cell);
    var spans := ToSpans(badges);
    assert FormatBadges(cell) == spans;
    CellBadgesCount(pieces);
    FilterIsSubSeq(TrimAll(pieces), b => b != "");
    assert SpanTexts(spans) == badges;
    forall s | s in spans
      ensures exists piece :: piece in pieces && s.text == Trim(piece)
    {
      assert s.text in TrimAll(pieces);
      var k :| 0 <= k < |pieces| && TrimAll(pieces)[k] == s.text;
      assert pieces[k] in pieces;
    }
  }

  /** The texts the spans show, in order. */
  function SpanTexts(spans: seq<Span>): (texts: seq<string>)
    ensures |texts| == |spans|
    ensures forall k :: 0 <= k < |spans| ==> texts[k] == spans[k].text
  {
    seq(|spans|, k requires 0 <= k < |spans| => spans[k].text)
  }

  /** How many comma-separated pieces are non-empty once trimmed. */
  function NonBlankCount(pieces: seq<string>): nat
    decreases |pieces|
  {
    if |pieces| == 0 then 0
    else NonBlankCount(pieces[..|pieces| - 1]) + if Trim(pieces[|pieces| - 1]) != "" then 1 else 0
  }

  /** The cell yields one badge per piece that is non-empty once trimmed. */
  lemma {:induction false} CellBadgesCount(pieces: seq<string>)
    ensures |Filter(TrimAll(pieces), b => b != "")| == NonBlankCount(pieces)
    decreases |pieces|
  {
    if |pieces| > 0 {
      var init, last := pieces[..|pieces| - 1], pieces[|pieces| - 1];
      TrimAllLast(pieces);
      FilterSnoc(TrimAll(init), Trim(last), b => b != "");
      CellBadgesCount(init);
    }
  }

  lemma {:induction false} TrimAllLast(pieces: seq<string>)
    requires |pieces| > 0
    ensures TrimAll(pieces) == TrimAll(pieces[..|pieces| - 1]) + [Trim(pieces[|pieces| - 1])]
  {
    var n := |pieces| - 1;
    var a, b := TrimAll(pieces), TrimAll(pieces[..n]) + [Trim(pieces[n])];
    assert |a| == |b|;
    forall k | 0 <= k < |a|
      ensures a[k] == b[k]
    {
      if k < n {
        assert pieces[..n][k] == pieces[k];
        assert a[k] == Trim(pieces[k]) == b[k];
      } else {
        assert k == n;
        assert a[k] == Trim(pieces[n]) == b[k];
      }
    }
  }

  lemma {:induction false} KeptByFilter(pieces: seq<string>, b: string)
    requires b in pieces && b != ""
    ensures b in Filter(pieces, b => b != "")
  {
  }

  /** Every piece of the cell that is non-empty once trimmed is read back as a badge. */
  lemma {:induction false} CellBadgesComplete(cell: string)
    ensures forall piece :: piece in Split(cell, ',') && Trim(piece) != "" ==> Trim(piece) in CellBadges(cell)
  {
    var pieces := Split(cell, ',');
    forall piece | piece in pieces && Trim(piece) != ""
      ensures Trim(piece) in CellBadges(cell)
    {
      var k :| 0 <= k < |pieces| && pieces[k] == piece;
      var trimmed := TrimAll(pieces);
      assert trimmed[k] == Trim(piece);
      assert Trim(piece) in trimmed;
      KeptByFilter(trimmed, Trim(piece));
    }
  }

  /** The badges produced by the validation script, or any badge shaped like them, survive
      the join-then-split round trip through the table cell unchanged and in order. */
  lemma {:induction false} FormatBadgeCellRoundTrip(badges: seq<string>)
    requires forall b :: b in badges ==> b != "" && IsTrimmed(b) && ',' !in b
    ensures FormatBadges(BadgeCell(Some(badges))) == ToSpans(badges)
  {
    CellPieces(badges);
    var pieces := Split(BadgeCell(Some(badges)), ',');
    var trimmed := TrimAll(pieces);
    if |badges| > 0 {
      forall k | 0 <= k < |badges|
        ensures trimmed[k] == badges[k]
      {
        if k == 0 {
          TrimTrimmed(badges[0]);
        } else {
          TrimLeadingBlank(badges[k]);
        }
      }
      assert trimmed == badges;
      FilterKeepsAll(badges, b => b != "");
    } else {
      assert trimmed == [""];
      assert Filter(trimmed, b => b != "") == [];
    }
  }

  /** The pieces of a joined cell: the first badge, then each later badge after its blank. */
  lemma {:induction false} CellPieces(badges: seq<string>)
    requires forall b :: b in badges ==> ',' !in b
    ensures var pieces := Split(BadgeCell(Some(badges)), ',');
      && |pieces| == (if |badges| == 0 then 1 else |badges|)
      && (|badges| == 0 ==> pieces == [""])
      && (|badges| > 0 ==> pieces[0] == badges[0])
      && forall k :: 1 <= k < |badges| ==> pieces[k] == [' '] + badges[k]
    decreases |badges|
  {
    if |badges| == 0 {
    } else if |badges| == 1 {
      SplitNoSeparator(badges[0], ',', "");
    } else {
      var init, last := badges[..|badges| - 1], badges[|badges| - 1];
      assert badges == init + [last];
      CellPieces(init);
      JoinSnoc(init, last, ", ");
      var j := Join(init, ", ");
      assert j + ", " + last == j + [','] + ([' '] + last);
      SplitAtSeparator(j, ',', [' '] + last, "");
      assert ',' !in [' '] + last;
      SplitNoSeparator([' '] + last, ',', "");
    }
  }

  /** Every piece of a split occurs in the split string. */
  lemma {:induction false} SplitPiecesAreInfixes(s: string, sep: char, current: string)
    ensures forall k :: 0 <= k < |SplitFrom(s, sep, current)| ==>
      Contains(current + s, SplitFrom(s, sep, current)[k])
    decreases |s|
  {
    if |s| == 0 {
      assert current + s == current;
      ContainsSelf(current);
    } else {
      var rest := s[1..];
      assert current + s == current + [s[0]] + rest;
      if s[0] == sep {
        SplitPiecesAreInfixes(rest, sep, "");
        assert "" + rest == rest;
        assert OccursAt(current + s, current, 0);
        forall k | 0 <= k < |SplitFrom(rest, sep, "")|
          ensures Contains(current + s, SplitFrom(rest, sep, "")[k])
        {
          var p := SplitFrom(rest, sep, "")[k];
          assert OccursAt(current + s, rest, |current| + 1);
          ContainsTransitive(current + s, rest, p);
        }
      } else {
        SplitPiecesAreInfixes(rest, sep, current + [s[0]]);
        assert current + [s[0]] + rest == current + s;
      }
    }
  }

  /** An infix of an infix is an infix. */
  lemma {:induction false} ContainsTransitive(s: string, mid: string, sub: string)
    requires Contains(s, mid) && Contains(mid, sub)
    ensures Contains(s, sub)
  {
    var i :| 0 <= i <= |s| && OccursAt(s, mid, i);
    var j :| 0 <= j <= |mid| && OccursAt(mid, sub, j);
    forall k | 0 <= k < |sub|
      ensures s[i + j + k] == sub[k]
    {
      assert s[i..i + |mid|][j + k] == s[i + j + k];
      assert mid[j..j + |sub|][k] == mid[j + k];
    }
    assert s[i + j..i + j + |sub|] == sub;
    assert OccursAt(s, sub, i + j);
  }

  /** The badges the validation script emits are classed by their family: "frontier" and
      "frontier_breaker" as frontier, "scales_well" as scales, "robust_highJ" as robust and
      "quality_jump" as quality. */
  lemma {:induction false} EmittedBadgeClasses()
    ensures BadgeClass("frontier") == "frontier"
    ensures BadgeClass("frontier_breaker") == "frontier"
    ensures BadgeClass("scales_well") == "scales"
    ensures BadgeClass("robust_highJ") == "robust"
    ensures BadgeClass("quality_jump") == "quality"
  {
    ContainsSelf("frontier");
    ContainsAtStart("frontier_breaker", "frontier");
    NotContainsMissingChar("scales_well", "frontier", 0);
    ContainsAtStart("scales_well", "scales");
    NotContainsMissingChar("robust_highJ", "frontier", 0);
    NotContainsMissingChar("robust_highJ", "scales", 1);
    ContainsAtStart("robust_highJ", "robust");
    NotContainsMissingChar("quality_jump", "frontier", 0);
    NotContainsMissingChar("quality_jump", "scales", 1);
    NotContainsMissingChar("quality_jump", "robust", 0);
    ContainsAtStart("quality_jump", "quality");
  }
}

=== FILE: filters.dfy ===
/** The keep/drop test of the scoreboard page (`applyFilters`), with the six filter controls
    passed as one immutable value instead of being read from the live page. */
module Filters {
  import opened Wrappers
  import opened Seqs
  import opened Strings
  import opened Records

  /** A snapshot of the filter controls; an empty string or `false` means "no constraint". */
  datatype FilterState = FilterState(
    task: string,
    hardwareClass: string,
    blocking: string,
    frontierOnly: bool,
    needScaling: bool,
    needJSweep: bool)

  /** Every control at its neutral setting. */
  const NoFilter := FilterState("", "", "", false, false, false)

  /** Some badge contains the substring "frontier" (so "frontier_breaker" counts too). */
  predicate HasFrontierBadge(r: Record) {
    exists b :: b in Badges(r) && Contains(b, "frontier")
  }

  /** `chains_list` is an array of at least two entries. */
  predicate HasScaling(r: Record) {
    r.scaling.Some? && r.scaling.value.chainsList.Some? && |r.scaling.value.chainsList.value| >= 2
  }

  /** `J_sweep` is an array of at least two entries. */
  predicate HasJSweep(r: Record) {
    r.jSweep.Some? && |r.jSweep.value| >= 2
  }

  /** The callback of `data.filter` in `applyFilters`: the checks in source order, each
      rejecting at once. */
  predicate Matches(r: Record, fs: FilterState) {
    if fs.task != "" && r.task != Some(fs.task) then false
    else if fs.hardwareClass != "" && r.hardwareClass != Some(fs.hardwareClass) then false
    else if fs.blocking != "" && Blocking(r) != fs.blocking then false
    else if fs.frontierOnly && !HasFrontierBadge(r) then false
    else if fs.needScaling && !HasScaling(r) then false
    else if fs.needJSweep && !HasJSweep(r) then false
    else true
  }

  /** The six constraints a filter state can impose. */
  datatype Constraint = TaskIs | HardwareIs | BlockingIs | FrontierBadge | ScalingData | JSweepData

  /** A constraint restricts anything only when its control is set. */
  predicate Active(fs: FilterState, c: Constraint) {
    match c
    case TaskIs => fs.task != ""
    case HardwareIs => fs.hardwareClass != ""
    case BlockingIs => fs.blocking != ""
    case FrontierBadge => fs.frontierOnly
    case ScalingData => fs.needScaling
    case JSweepData => fs.needJSweep
  }

  /** What satisfying one constraint means for a record. */
  predicate Satisfies(r: Record, fs: FilterState, c: Constraint) {
    match c
    case TaskIs => r.task == Some(fs.task)
    case HardwareIs => r.hardwareClass == Some(fs.hardwareClass)
    case BlockingIs => Blocking(r) == fs.blocking
    case FrontierBadge => HasFrontierBadge(r)
    case ScalingData => HasScaling(r)
    case JSweepData => HasJSweep(r)
  }

  /** The early-return chain is the plain conjunction of the active constraints, so the order
      in which the checks run does not matter. */
  lemma {:induction false} MatchesIffAllActiveSatisfied(r: Record, fs: FilterState)
    ensures Matches(r, fs) <==> forall c :: Active(fs, c) ==> Satisfies(r, fs, c)
  {
    if !Matches(r, fs) {
      var c :| c in [TaskIs, HardwareIs, BlockingIs, FrontierBadge, ScalingData, JSweepData] && Active(fs, c) && !Satisfies(r, fs, c);
    }
  }

  /** `applyFilters(data)`: the records passing every active constraint, in input order. */
  function ApplyFilters(data: seq<Record>, fs: FilterState): (kept: seq<Record>)
    ensures |kept| <= |data|
    ensures forall r :: r in kept <==> r in data && Matches(r, fs)
    ensures forall r :: r in kept ==>
      && (fs.task != "" ==> r.task == Some(fs.task))
      && (fs.hardwareClass != "" ==> r.hardwareClass == Some(fs.hardwareClass))
      && (fs.blocking != "" ==> Blocking(r) == fs.blocking)
      && (fs.frontierOnly ==> exists b :: b in Badges(r) && Contains(b, "frontier"))
      && (fs.needScaling ==> |ChainsList(r)| >= 2)
      && (fs.needJSweep ==> |Sweep(r)| >= 2)
  {
    Filter(data, r => Matches(r, fs))
  }

  /** The kept records exactly, multiplicity included: an empty input keeps nothing, and one
      more record at the end is appended to the result exactly when it passes the test. */
  lemma {:induction false} ApplyFiltersSnoc(data: seq<Record>, r: Record, fs: FilterState)
    ensures ApplyFilters([], fs) == []
    ensures ApplyFilters(data + [r], fs) == ApplyFilters(data, fs) + (if Matches(r, fs) then [r] else [])
  {
    FilterSnoc(data, r, r => Matches(r, fs));
  }

  /** The kept records are an order-preserving subsequence of the input. */
  lemma {:induction false} ApplyFiltersIsSubsequence(data: seq<Record>, fs: FilterState)
    ensures SubSeq(ApplyFilters(data, fs), data)
  {
    FilterIsSubSeq(data, r => Matches(r, fs));
  }

  /** Filtering the filtered list with the same state changes nothing. */
  lemma {:induction false} ApplyFiltersIdempotent(data: seq<Record>, fs: FilterState)
    ensures ApplyFilters(ApplyFilters(data, fs), fs) == ApplyFilters(data, fs)
  {
    FilterIdempotent(data, r => Matches(r, fs));
  }

  /** With every control neutral every record is kept. */
  lemma {:induction false} NoFilterKeepsAll(data: seq<Record>)
    ensures ApplyFilters(data, NoFilter) == data
  {
    FilterKeepsAll(data, r => Matches(r, NoFilter));
  }

  /** `loose` constrains nothing that `tight` does not constrain identically. */
  predicate Looser(loose: FilterState, tight: FilterState) {
    && (loose.task == "" || loose.task == tight.task)
    && (loose.hardwareClass == "" || loose.hardwareClass == tight.hardwareClass)
    && (loose.blocking == "" || loose.blocking == tight.blocking)
    && (loose.frontierOnly ==> tight.frontierOnly)
    && (loose.needScaling ==> tight.needScaling)
    && (loose.needJSweep ==> tight.needJSweep)
  }

  /** Setting more controls only ever removes records, keeping the order of the rest. */
  lemma {:induction false} TighterFilterKeepsSubsequence(data: seq<Record>, loose: FilterState, tight: FilterState)
    requires Looser(loose, tight)
    ensures SubSeq(ApplyFilters(data, tight), ApplyFilters(data, loose))
  {
    FilterMonotone(data, r => Matches(r, tight), r => Matches(r, loose));
  }
}

=== FILE: frontier_badges.dfy ===
/** The frontier pass of the validation script: records are bucketed by `(task,
    hardware_class)`, each bucket's Pareto front over (samples/sec, recomputed ESS/sec) is
    computed, and every record of the bucket gets "frontier" when it is on that front and
    "frontier_breaker" when its ESS/sec reaches 1.10 times the front's best. */
module FrontierBadges {
  import opened Wrappers
  import opened Seqs
  import opened Strings
  import opened Records
  import opened Pareto
  import Filters
  import Series

  /** A bucket key: `(task, hardware_class)`. */
  type Key = (Option<string>, Option<string>)

  function KeyOf(r: Record): Key {
    (r.task, r.hardwareClass)
  }

  /** What schema validation and the ESS recomputation guarantee before the pass runs: the key
      fields, throughput and recomputed ESS/sec are all present. */
  predicate Validated(r: Record) {
    && r.task.Some?
    && r.hardwareClass.Some?
    && r.metricsMean.Some?
    && r.metricsMean.value.samplesPerSec.Some?
    && r.metricsMean.value.essPerSecCalc.Some?
  }

  predicate AllValidated(records: seq<Record>) {
    forall i :: 0 <= i < |records| ==> Validated(records[i])
  }

  /** The throughput coordinate, `samples_per_sec`. */
  function X(r: Record): real
    requires Validated(r)
  {
    r.metricsMean.value.samplesPerSec.value
  }

  /** The efficiency coordinate, `ESS_per_sec_calc`. */
  function Y(r: Record): real
    requires Validated(r)
  {
    r.metricsMean.value.essPerSecCalc.value
  }

  /** The point `{"idx": idx, "x": ..., "y": ...}` built for a record. */
  function PointOf(r: Record, idx: nat): (p: Point)
    requires Validated(r)
    ensures p.idx == idx && p.x == X(r) && p.y == Y(r)
  {
    Point(idx, X(r), Y(r))
  }

  /** The points of one bucket, in record order (the `defaultdict` list filled by enumerating
      the records). */
  function BucketPoints(records: seq<Record>, key: Key): (pts: seq<Point>)
    requires AllValidated(records)
    ensures forall t :: 0 <= t < |pts| ==>
      pts[t].idx < |records| && KeyOf(records[pts[t].idx]) == key && pts[t] == PointOf(records[pts[t].idx], pts[t].idx)
    ensures forall a, b :: 0 <= a < b < |pts| ==> pts[a].idx < pts[b].idx
    decreases |records|
  {
    if |records| == 0 then []
    else
      var init := records[..|records| - 1];
      var last := records[|records| - 1];
      BucketPoints(init, key) + (if KeyOf(last) == key then [PointOf(last, |records| - 1)] else [])
  }

  /** Every record of the bucket contributes its point. */
  lemma {:induction false} BucketPointsComplete(records: seq<Record>, key: Key, i: nat)
    requires AllValidated(records) && i < |records| && KeyOf(records[i]) == key
    ensures PointOf(records[i], i) in BucketPoints(records, key)
    decreases |records|
  {
    var init := records[..|records| - 1];
    var last := records[|records| - 1];
    if i < |records| - 1 {
      assert records[i] == init[i];
      BucketPointsComplete(init, key, i);
    } else {
      assert BucketPoints(records, key)[|BucketPoints(records, key)| - 1] == PointOf(last, i);
    }
  }

  /** `hull = pareto_front(pts)` for the bucket. */
  function Hull(records: seq<Record>, key: Key): seq<Point>
    requires AllValidated(records)
  {
    Front(SortByKey(BucketPoints(records, key)))
  }

  /** `hull_idx`: the record positions on the bucket's front. */
  function HullIdx(records: seq<Record>, key: Key): set<nat>
    requires AllValidated(records)
  {
    set p | p in Hull(records, key) :: p.idx
  }

  /** `max((p["y"] for p in hull), default=0.0)`. */
  function HullMaxY(records: seq<Record>, key: Key): real
    requires AllValidated(records)
  {
    MaxY(Hull(records, key)).GetOr(0.0)
  }

  /** The breaker threshold factor, as a decimal (floating point rounding is not modelled). */
  const BreakerFactor: real := 1.10

  /** The badge update of one record, given whether it is on its bucket's front and the front's
      best ESS/sec: `setdefault("badges", [])`, then the two conditional appends. */
  function Stamp(r: Record, onFront: bool, maxY: real): (r': Record)
    requires Validated(r)
    ensures Validated(r')
    ensures r'.metricsMean.value.badges.Some?
  {
    var m := r.metricsMean.value;
    var badges := m.badges.GetOr([]);
    var withFrontier := if onFront then badges + ["frontier"] else badges;
    var withBreaker :=
      if maxY > 0.0 && m.essPerSecCalc.value >= BreakerFactor * maxY then withFrontier + ["frontier_breaker"]
      else withFrontier;
    r.(metricsMean := Some(m.(badges := Some(withBreaker))))
  }

  /** The record at position `i` once the pass has visited it. */
  function Badged(records: seq<Record>, i: nat): Record
    requires AllValidated(records) && i < |records|
  {
    var key := KeyOf(records[i]);
    Stamp(records[i], i in HullIdx(records, key), HullMaxY(records, key))
  }

  /** The bucket keys in first-appearance order, as the `defaultdict` iterates them. */
  function Keys(records: seq<Record>): (keys: seq<Key>)
    ensures NoDup(keys)
    ensures forall k :: k in keys <==> exists i :: 0 <= i < |records| && KeyOf(records[i]) == k
  {
    var all := seq(|records|, i requires 0 <= i < |records| => KeyOf(records[i]));
    assert forall i :: 0 <= i < |records| ==> all[i] == KeyOf(records[i]);
    Distinct(all)
  }

  /** `target` holds every record as the pass leaves it. */
  ghost predicate IsTarget(records: seq<Record>, target: seq<Record>)
    requires AllValidated(records)
  {
    |target| == |records| && forall i :: 0 <= i < |records| ==> target[i] == Badged(records, i)
  }

  /** Progress of the bucket loop: the records whose key is in `finished`, and the positions in
      `done`, hold their final value from `target`; every other record is untouched. */
  ghost predicate PassState(records: seq<Record>, target: seq<Record>, out: seq<Record>,
                            finished: seq<Key>, done: set<nat>)
  {
    && |target| == |records|
    && |out| == |records|
    && forall i :: 0 <= i < |records| ==>
         out[i] == if KeyOf(records[i]) in finished || i in done then target[i] else records[i]
  }

  /** The record positions a list of points refers to. */
  ghost function Positions(pts: seq<Point>): (ps: set<nat>)
    ensures forall i :: i in ps <==> exists t :: 0 <= t < |pts| && pts[t].idx == i
  {
    if |pts| == 0 then {}
    else
      var init := pts[..|pts| - 1];
      assert forall t :: 0 <= t < |init| ==> init[t] == pts[t];
      Positions(init) + {pts[|pts| - 1].idx}
  }

  /** Stamping one more record of the current bucket advances the loop state. */
  lemma {:induction false} PassStateStep(records: seq<Record>, target: seq<Record>, out: seq<Record>,
                      finished: seq<Key>, done: set<nat>, idx: nat)
    requires PassState(records, target, out, finished, done)
    requires idx < |records| && KeyOf(records[idx]) !in finished && idx !in done
    ensures out[idx] == records[idx]
    ensures PassState(records, target, out[idx := target[idx]], finished, done + {idx})
  {
  }

  /** Once every record of the bucket has been stamped, the bucket counts as finished. */
  lemma {:induction false} PassStateFinish(records: seq<Record>, target: seq<Record>, out: seq<Record>,
                        finished: seq<Key>, done: set<nat>, key: Key)
    requires PassState(records, target, out, finished, done)
    requires forall i :: 0 <= i < |records| ==> (i in done <==> KeyOf(records[i]) == key)
    ensures PassState(records, target, out, finished + [key], {})
  {
  }

  /** The inner loop over one bucket's records, given the bucket's `hull_idx` and `max_y`. */
  method StampItems(records: seq<Record>, ghost target: seq<Record>, out: seq<Record>,
                    finished: seq<Key>, key: Key, items: seq<Point>, hullIdx: set<nat>, maxY: real)
    returns (out': seq<Record>)
    requires AllValidated(records) && IsTarget(records, target)
    requires PassState(records, target, out, finished, {})
    requires key !in finished
    requires items == BucketPoints(records, key)
    requires hullIdx == HullIdx(records, key) && maxY == HullMaxY(records, key)
    ensures PassState(records, target, out', finished, Positions(items))
  {
    out' := out;
    var j := 0;
    while j < |items|
      invariant 0 <= j <= |items|
      invariant PassState(records, target, out', finished, Positions(items[..j]))
    {
      var idx := items[j].idx;
      StampItemsStep(records, target, out', finished, key, items, j);
      assert Stamp(out'[idx], idx in hullIdx, maxY) == target[idx];
      out' := out'[idx := Stamp(out'[idx], idx in hullIdx, maxY)];
      j := j + 1;
    }
    assert items[..j] == items;
  }

  /** One step of the inner loop: the next bucket point names a record of the bucket that is
      still untouched, and stamping it advances the loop state. */
  lemma {:induction false} StampItemsStep(records: seq<Record>, target: seq<Record>, out: seq<Record>,
                       finished: seq<Key>, key: Key, items: seq<Point>, j: nat)
    requires AllValidated(records)
    requires key !in finished
    requires items == BucketPoints(records, key)
    requires j < |items|
    requires PassState(records, target, out, finished, Positions(items[..j]))
    ensures items[j].idx < |records| && KeyOf(records[items[j].idx]) == key
    ensures out[items[j].idx] == records[items[j].idx]
    ensures PassState(records, target, out[items[j].idx := target[items[j].idx]], finished, Positions(items[..j + 1]))
  {
    var idx := items[j].idx;
    var done := Positions(items[..j]);
    NotYetVisited(items, j);
    PassStateStep(records, target, out, finished, done, idx);
    PositionsSnoc(items, j);
  }

  /** In a list with strictly increasing positions, a point's position does not occur before it. */
  lemma {:induction false} NotYetVisited(items: seq<Point>, j: nat)
    requires j < |items|
    requires forall a, b :: 0 <= a < b < |items| ==> items[a].idx < items[b].idx
    ensures items[j].idx !in Positions(items[..j])
  {
  }

  lemma {:induction false} PositionsSnoc(items: seq<Point>, j: nat)
    requires j < |items|
    ensures Positions(items[..j + 1]) == Positions(items[..j]) + {items[j].idx}
  {
    assert items[..j + 1][..j] == items[..j];
  }

  /** The positions of a bucket's points are exactly the records with its key. */
  lemma {:induction false} BucketPositions(records: seq<Record>, key: Key)
    requires AllValidated(records)
    ensures forall i :: 0 <= i < |records| ==> (i in Positions(BucketPoints(records, key)) <==> KeyOf(records[i]) == key)
  {
    var items := BucketPoints(records, key);
    forall i | 0 <= i < |records| && KeyOf(records[i]) == key
      ensures i in Positions(items)
    {
      BucketPointsComplete(records, key, i);
      var t :| 0 <= t < |items| && items[t] == PointOf(records[i], i);
    }
  }

  /** The per-bucket preparation: the bucket's points, `hull_idx` from `pareto_front`, and
      `max_y` with its `0.0` default. */
  method BucketFront(records: seq<Record>, key: Key) returns (items: seq<Point>, hullIdx: set<nat>, maxY: real)
    requires AllValidated(records)
    ensures items == BucketPoints(records, key)
    ensures hullIdx == HullIdx(records, key)
    ensures maxY == HullMaxY(records, key)
  {
    items := BucketPoints(records, key);
    hullIdx, maxY := HullSummary(items);
  }

  /** `pareto_front` on a bucket's points, reduced to what the stamping reads. */
  method HullSummary(items: seq<Point>) returns (hullIdx: set<nat>, maxY: real)
    ensures hullIdx == set p | p in Front(SortByKey(items)) :: p.idx
    ensures maxY == MaxY(Front(SortByKey(items))).GetOr(0.0)
  {
    var hull := ParetoFront(items);
    hullIdx := set p | p in hull :: p.idx;
    maxY := MaxY(hull).GetOr(0.0);
  }

  /** One iteration of the bucket loop: the front of the bucket, then the stamping of its
      records in order. */
  method StampBucket(records: seq<Record>, ghost target: seq<Record>, out: seq<Record>,
                     finished: seq<Key>, key: Key)
    returns (out': seq<Record>)
    requires AllValidated(records) && IsTarget(records, target)
    requires PassState(records, target, out, finished, {})
    requires key !in finished
    ensures PassState(records, target, out', finished + [key], {})
  {
    var items, hullIdx, maxY := BucketFront(records, key);
    out' := StampItems(records, target, out, finished, key, items, hullIdx, maxY);
    BucketPositions(records, key);
    PassStateFinish(records, target, out', finished, Positions(items), key);
  }

  /** The bucket loop: for every bucket in first-appearance order, compute its front with
      `ParetoFront` and stamp its records. */
  method FrontierPass(records: seq<Record>) returns (out: seq<Record>)
    requires AllValidated(records)
    ensures |out| == |records|
    ensures forall i :: 0 <= i < |records| ==> out[i] == Badged(records, i)
    ensures forall i :: 0 <= i < |records| ==> out[i] == records[i].(metricsMean := Some(records[i].metricsMean.value.(
      badges := Some(Badges(records[i]) + if i in HullIdx(records, KeyOf(records[i])) then ["frontier"] else []))))
  {
    ghost var target := seq(|records|, i requires 0 <= i < |records| => Badged(records, i));
    var keys := Keys(records);
    out := records;
    var k := 0;
    while k < |keys|
      invariant 0 <= k <= |keys|
      invariant PassState(records, target, out, keys[..k], {})
    {
      assert keys[k] !in keys[..k] by {
        assert keys[k] in keys[k..];
      }
      out := StampBucket(records, target, out, keys[..k], keys[k]);
      assert keys[..k + 1] == keys[..k] + [keys[k]];
      k := k + 1;
    }
    assert keys[..k] == keys;
    forall i | 0 <= i < |records|
      ensures out[i] == Badged(records, i)
    {
      assert KeyOf(records[i]) in keys;
    }
    forall i | 0 <= i < |records|
      ensures out[i] == records[i].(metricsMean := Some(records[i].metricsMean.value.(
        badges := Some(Badges(records[i]) + if i in HullIdx(records, KeyOf(records[i])) then ["frontier"] else []))))
    {
      BadgedAppendsOnlyFrontier(records, i);
    }
  }

  /** A record is on its bucket's front exactly when its own point is on the hull. */
  lemma {:induction false} OnHullIffPointOnHull(records: seq<Record>, i: nat)
    requires AllValidated(records) && i < |records|
    ensures i in HullIdx(records, KeyOf(records[i])) <==> PointOf(records[i], i) in Hull(records, KeyOf(records[i]))
  {
    var key := KeyOf(records[i]);
    var pts := SortByKey(BucketPoints(records, key));
    assert forall p :: p in pts ==> p in multiset(BucketPoints(records, key));
    if i in HullIdx(records, key) {
      var p :| p in Hull(records, key) && p.idx == i;
      assert p in multiset(BucketPoints(records, key));
      var t :| 0 <= t < |BucketPoints(records, key)| && BucketPoints(records, key)[t] == p;
    }
  }

  /** Every record's ESS/sec is at most its bucket front's best. */
  lemma {:induction false} RecordBelowHullMax(records: seq<Record>, i: nat)
    requires AllValidated(records) && i < |records|
    ensures Hull(records, KeyOf(records[i])) != []
    ensures Y(records[i]) <= HullMaxY(records, KeyOf(records[i]))
  {
    var key := KeyOf(records[i]);
    var bucket := BucketPoints(records, key);
    var pts := SortByKey(bucket);
    BucketPointsComplete(records, key, i);
    assert PointOf(records[i], i) in multiset(pts);
    FrontKeepsMaxY(pts);
    SortKeepsMaxY(bucket);
    var t :| 0 <= t < |bucket| && bucket[t] == PointOf(records[i], i);
    assert bucket[t].y <= MaxY(bucket).value;
  }

  /** The "frontier_breaker" test can never pass: the front's best ESS/sec is the bucket's best,
      so no record of the bucket reaches 1.10 times it. */
  lemma {:induction false} BreakerNeverFires(records: seq<Record>, i: nat)
    requires AllValidated(records) && i < |records|
    ensures !(HullMaxY(records, KeyOf(records[i])) > 0.0
              && Y(records[i]) >= BreakerFactor * HullMaxY(records, KeyOf(records[i])))
  {
    RecordBelowHullMax(records, i);
  }

  /** Without the breaker, stamping only extends the badge list (creating it when absent). */
  lemma {:induction false} StampWithoutBreaker(r: Record, onFront: bool, maxY: real)
    requires Validated(r)
    requires !(maxY > 0.0 && Y(r) >= BreakerFactor * maxY)
    ensures Stamp(r, onFront, maxY) == r.(metricsMean := Some(r.metricsMean.value.(
      badges := Some(Badges(r) + if onFront then ["frontier"] else []))))
  {
    var badges := Badges(r);
    assert badges == r.metricsMean.value.badges.GetOr([]);
    if !onFront {
      assert badges + [] == badges;
    }
  }

  /** The pass changes nothing but the badge list, and appends "frontier" exactly to the records
      on their bucket's front. */
  lemma {:induction false} BadgedAppendsOnlyFrontier(records: seq<Record>, i: nat)
    requires AllValidated(records) && i < |records|
    ensures Badged(records, i) == records[i].(metricsMean := Some(records[i].metricsMean.value.(
      badges := Some(Badges(records[i]) + if i in HullIdx(records, KeyOf(records[i])) then ["frontier"] else []))))
  {
    var key := KeyOf(records[i]);
    BreakerNeverFires(records, i);
    StampWithoutBreaker(records[i], i in HullIdx(records, key), HullMaxY(records, key));
  }

  /** Every record shares its bucket with some record on the front. */
  lemma {:induction false} EveryBucketHasFrontier(records: seq<Record>, i: nat)
    requires AllValidated(records) && i < |records|
    ensures exists j :: 0 <= j < |records| && KeyOf(records[j]) == KeyOf(records[i])
                        && j in HullIdx(records, KeyOf(records[i]))
  {
    var key := KeyOf(records[i]);
    RecordBelowHullMax(records, i);
    var p := Hull(records, key)[0];
    assert p in SortByKey(BucketPoints(records, key));
    assert p in multiset(BucketPoints(records, key));
    assert p.idx in HullIdx(records, key);
  }

  /** Record `i` is undominated in its bucket: every bucket mate with lower throughput has lower
      ESS/sec, and none with equal throughput has higher ESS/sec. */
  predicate RecordUndominated(records: seq<Record>, i: nat)
    requires AllValidated(records) && i < |records|
  {
    forall j :: 0 <= j < |records| && KeyOf(records[j]) == KeyOf(records[i]) ==>
      (X(records[j]) < X(records[i]) ==> Y(records[j]) < Y(records[i]))
      && (X(records[j]) == X(records[i]) ==> Y(records[j]) <= Y(records[i]))
  }

  /** No earlier record of the bucket has exactly the same coordinates. */
  predicate EarliestAtCoordinates(records: seq<Record>, i: nat)
    requires AllValidated(records) && i < |records|
  {
    forall j :: 0 <= j < i && KeyOf(records[j]) == KeyOf(records[i]) ==>
      X(records[j]) != X(records[i]) || Y(records[j]) != Y(records[i])
  }

  /** What the "frontier" badge means, first half: a record on its bucket's front has no bucket
      mate that beats it from the left, and no earlier bucket mate at its coordinates. */
  lemma {:induction false} FrontierRecordUndominated(records: seq<Record>, i: nat)
    requires AllValidated(records) && i < |records|
    requires i in HullIdx(records, KeyOf(records[i]))
    ensures RecordUndominated(records, i)
    ensures EarliestAtCoordinates(records, i)
  {
    var key := KeyOf(records[i]);
    OnHullIffPointOnHull(records, i);
    ParetoFrontSound(BucketPoints(records, key), PointOf(records[i], i));
    PointUndominatedToRecord(records, key, i);
    FirstOfTiesToEarliest(records, key, i);
  }

  /** Second half: an undominated record that no earlier bucket mate matches in both
      coordinates is on its bucket's front. */
  lemma {:induction false} UndominatedRecordOnFront(records: seq<Record>, i: nat)
    requires AllValidated(records) && i < |records|
    requires RecordUndominated(records, i) && EarliestAtCoordinates(records, i)
    ensures i in HullIdx(records, KeyOf(records[i]))
  {
    var key := KeyOf(records[i]);
    RecordUndominatedToPoint(records, key, i);
    EarliestToFirstOfTies(records, key, i);
    ParetoFrontComplete(BucketPoints(records, key), PointOf(records[i], i));
    OnHullIffPointOnHull(records, i);
  }

  /** A record's point that heads its ties in the bucket comes from the earliest record at
      those coordinates. */
  lemma {:induction false} FirstOfTiesToEarliest(records: seq<Record>, key: Key, i: nat)
    requires AllValidated(records) && i < |records| && KeyOf(records[i]) == key
    requires FirstOfTies(PointOf(records[i], i), BucketPoints(records, key))
    ensures EarliestAtCoordinates(records, i)
  {
    var pts := BucketPoints(records, key);
    var p := PointOf(records[i], i);
    var u0 := FirstTie(pts, p);
    forall j | 0 <= j < i && KeyOf(records[j]) == key
      ensures X(records[j]) != X(records[i]) || Y(records[j]) != Y(records[i])
    {
      BucketPointsComplete(records, key, j);
      var u :| 0 <= u < |pts| && pts[u] == PointOf(records[j], j);
      assert u < u0 by {
        assert pts[u].idx < pts[u0].idx;
      }
      assert !SameCoordinates(pts[u], p);
    }
  }

  /** Conversely, the earliest record at its coordinates gives the head of its ties. */
  lemma {:induction false} EarliestToFirstOfTies(records: seq<Record>, key: Key, i: nat)
    requires AllValidated(records) && i < |records| && KeyOf(records[i]) == key
    requires EarliestAtCoordinates(records, i)
    ensures FirstOfTies(PointOf(records[i], i), BucketPoints(records, key))
  {
    var pts := BucketPoints(records, key);
    var p := PointOf(records[i], i);
    BucketPointsComplete(records, key, i);
    var t :| 0 <= t < |pts| && pts[t] == p;
    forall u | 0 <= u < t
      ensures !SameCoordinates(pts[u], p)
    {
      var j := pts[u].idx;
      assert j < i;
      assert pts[u] == PointOf(records[j], j);
    }
    TiesHeadAt(pts, t, p);
  }

  /** A record whose point is undominated in its bucket is undominated among its bucket mates. */
  lemma {:induction false} PointUndominatedToRecord(records: seq<Record>, key: Key, i: nat)
    requires AllValidated(records) && i < |records| && KeyOf(records[i]) == key
    requires Undominated(PointOf(records[i], i), BucketPoints(records, key))
    ensures RecordUndominated(records, i)
  {
    forall j | 0 <= j < |records| && KeyOf(records[j]) == key
      ensures (X(records[j]) < X(records[i]) ==> Y(records[j]) < Y(records[i]))
           && (X(records[j]) == X(records[i]) ==> Y(records[j]) <= Y(records[i]))
    {
      BucketPointsComplete(records, key, j);
    }
  }

  /** Conversely, an undominated record gives an undominated point of its bucket. */
  lemma {:induction false} RecordUndominatedToPoint(records: seq<Record>, key: Key, i: nat)
    requires AllValidated(records) && i < |records| && KeyOf(records[i]) == key
    requires RecordUndominated(records, i)
    ensures Undominated(PointOf(records[i], i), BucketPoints(records, key))
  {
    var pts := BucketPoints(records, key);
    forall q | q in pts
      ensures (q.x < X(records[i]) ==> q.y < Y(records[i]))
           && (q.x == X(records[i]) ==> q.y <= Y(records[i]))
    {
      var t :| 0 <= t < |pts| && pts[t] == q;
      var j := q.idx;
      assert KeyOf(records[j]) == key && q == PointOf(records[j], j);
    }
  }

  /** After the pass, the scoreboard's "frontier only" filter keeps exactly the records on a
      front and those that already carried a tag containing "frontier". */
  lemma {:induction false} FrontierFilterAfterPass(records: seq<Record>, i: nat)
    requires AllValidated(records) && i < |records|
    ensures Filters.Matches(Badged(records, i), Filters.NoFilter.(frontierOnly := true)) <==>
      i in HullIdx(records, KeyOf(records[i])) || Filters.HasFrontierBadge(records[i])
  {
    BadgedAppendsOnlyFrontier(records, i);
    var before := Badges(records[i]);
    if i in HullIdx(records, KeyOf(records[i])) {
      ContainsSelf("frontier");
      assert "frontier" in Badges(Badged(records, i));
    }
    assert forall b :: b in Badges(Badged(records, i)) ==>
      b in before || (i in HullIdx(records, KeyOf(records[i])) && b == "frontier");
  }

  /** After the pass, the Pareto scatter draws every front record with the emphasised stroke. */
  lemma {:induction false} FrontRecordsEmphasised(records: seq<Record>, i: nat)
    requires AllValidated(records) && i < |records|
    requires i in HullIdx(records, KeyOf(records[i]))
    ensures Series.StrokeWidth(Badged(records, i)) >= 1.8
  {
    BadgedAppendsOnlyFrontier(records, i);
    assert "frontier" in Badges(Badged(records, i));
  }
}

=== FILE: pareto.dfy ===
/** `pareto_front` of the validation script: sort the points by x ascending and y
    descending, then keep each point whose y strictly beats every y seen before it. */
module Pareto {
  import opened Wrappers
  import opened Seqs

  /** A bucket member: its record index, samples/sec as x and ESS/sec as y. */
  datatype Point = Point(idx: nat, x: real, y: real)

  /** Python's tuple order on the sort key `(x, -y)`. */
  predicate KeyLess(p: Point, q: Point) {
    p.x < q.x || (p.x == q.x && p.y > q.y)
  }

  /** Ascending by the sort key (points with equal keys in any order). */
  predicate KeySorted(s: seq<Point>) {
    forall i, j :: 0 <= i < j < |s| ==> !KeyLess(s[j], s[i])
  }

  /** Inserts `p` after every point whose key is not above its own, so points with equal
      keys keep their input order. */
  function InsertByKey(s: seq<Point>, p: Point): (r: seq<Point>)
    requires KeySorted(s)
    ensures KeySorted(r)
    ensures multiset(r) == multiset(s) + multiset{p}
    ensures |r| == |s| + 1
    decreases |s|
  {
    if |s| == 0 then [p]
    else
      var init, last := s[..|s| - 1], s[|s| - 1];
      assert s == init + [last];
      if KeyLess(p, last) then
        var r := InsertByKey(init, p);
        assert forall q :: q in r ==> q in init || q == p by {
          assert forall q :: q in r ==> q in multiset(r);
        }
        LastAboveInit(init, last);
        AppendAboveKeepsKeySorted(r, last);
        r + [last]
      else
        AppendAboveKeepsKeySorted(s, p);
        s + [p]
  }

  /** No point of a key-sorted list has a key above its last one. */
  lemma {:induction false} LastAboveInit(init: seq<Point>, last: Point)
    requires KeySorted(init + [last])
    ensures forall q :: q in init ==> !KeyLess(last, q)
  {
    forall q | q in init
      ensures !KeyLess(last, q)
    {
      var k :| 0 <= k < |init| && init[k] == q;
      var s := init + [last];
      assert s[k] == q && s[|init|] == last;
      assert !KeyLess(s[|init|], s[k]);
    }
  }

  /** Appending a point whose key is below no element keeps a list key-sorted. */
  lemma {:induction false} AppendAboveKeepsKeySorted(s: seq<Point>, p: Point)
    requires KeySorted(s)
    requires (|s| > 0 && !KeyLess(p, s[|s| - 1])) || forall q :: q in s ==> !KeyLess(p, q)
    ensures KeySorted(s + [p])
  {
    if |s| > 0 && !KeyLess(p, s[|s| - 1]) {
      assert forall i :: 0 <= i < |s| ==> !KeyLess(s[|s| - 1], s[i]);
    }
  }

  /** `sorted(points, key=lambda p: (p["x"], -p["y"]))`: a key-sorted permutation that, like
      Python's sort, is stable: the points of every key keep their input order. */
  function SortByKey(points: seq<Point>): (r: seq<Point>)
    ensures KeySorted(r)
    ensures multiset(r) == multiset(points)
    ensures |r| == |points|
    ensures forall c :: Ties(r, c) == Ties(points, c)
    decreases |points|
  {
    if |points| == 0 then []
    else
      var init, last := points[..|points| - 1], points[|points| - 1];
      assert points == init + [last];
      var sorted := SortByKey(init);
      InsertByKeyStable(sorted, last);
      assert (sorted + [last])[..|sorted|] == sorted;
      InsertByKey(sorted, last)
  }

  /** Two points share the sort key `(x, -y)` exactly when they share both coordinates. */
  predicate SameCoordinates(p: Point, q: Point) {
    p.x == q.x && p.y == q.y
  }

  /** The points of `s` at the coordinates of `c`, in the order of `s`. */
  function Ties(s: seq<Point>, c: Point): (t: seq<Point>)
    ensures forall q :: q in t <==> q in s && SameCoordinates(q, c)
    decreases |s|
  {
    if |s| == 0 then []
    else
      var init, last := s[..|s| - 1], s[|s| - 1];
      assert s == init + [last];
      Ties(init, c) + if SameCoordinates(last, c) then [last] else []
  }

  lemma {:induction false} TiesSnoc(s: seq<Point>, x: Point, c: Point)
    ensures SameCoordinates(x, c) ==> Ties(s + [x], c) == Ties(s, c) + [x]
    ensures !SameCoordinates(x, c) ==> Ties(s + [x], c) == Ties(s, c)
  {
    assert (s + [x])[..|s|] == s;
    var t := Ties(s, c);
    assert t + [] == t;
  }

  /** A sequence without a point at the coordinates of `c` has no ties of `c`. */
  lemma {:induction false} NoTies(s: seq<Point>, c: Point)
    requires forall q :: q in s ==> !SameCoordinates(q, c)
    ensures Ties(s, c) == []
    decreases |s|
  {
    if |s| > 0 {
      var init, last := s[..|s| - 1], s[|s| - 1];
      assert s == init + [last];
      TiesSnoc(init, last, c);
      NoTies(init, c);
    }
  }

  /** Inserting a point behind the points of its own key keeps the order of every key. */
  lemma {:induction false} InsertByKeyStableAt(s: seq<Point>, p: Point, c: Point)
    requires KeySorted(s)
    ensures Ties(InsertByKey(s, p), c) == Ties(s + [p], c)
    decreases |s|
  {
    if |s| > 0 {
      var init, last := s[..|s| - 1], s[|s| - 1];
      InsertByKeyUnfold(s, p);
      if KeyLess(p, last) {
        KeySortedInit(init, last);
        InsertByKeyStableAt(init, p, c);
        TiesPassLast(InsertByKey(init, p), init, last, p, c);
      }
    }
  }

  /** One step of the insertion: `p` either passes the last point or lands behind it. */
  lemma {:induction false} InsertByKeyUnfold(s: seq<Point>, p: Point)
    requires KeySorted(s) && |s| > 0
    ensures s == s[..|s| - 1] + [s[|s| - 1]]
    ensures KeySorted(s[..|s| - 1])
    ensures InsertByKey(s, p) ==
      if KeyLess(p, s[|s| - 1]) then InsertByKey(s[..|s| - 1], p) + [s[|s| - 1]] else s + [p]
  {
    assert s == s[..|s| - 1] + [s[|s| - 1]];
    KeySortedInit(s[..|s| - 1], s[|s| - 1]);
  }

  /** A point of a smaller key passing `last` does not change the order of any key. */
  lemma {:induction false} TiesPassLast(r: seq<Point>, init: seq<Point>, last: Point, p: Point, c: Point)
    requires Ties(r, c) == Ties(init + [p], c)
    requires KeyLess(p, last)
    ensures Ties(r + [last], c) == Ties(init + [last] + [p], c)
  {
    TiesSnoc(r, last, c);
    TiesSnoc(init, p, c);
    TiesSnoc(init + [last], p, c);
    TiesSnoc(init, last, c);
    if SameCoordinates(p, c) {
      assert !SameCoordinates(last, c);
      assert Ties(r + [last], c) == Ties(init, c) + [p];
      assert Ties(init + [last] + [p], c) == Ties(init, c) + [p];
    } else {
      assert Ties(r + [last], c) == Ties(init + [last], c);
    }
  }

  lemma {:induction false} InsertByKeyStable(s: seq<Point>, p: Point)
    requires KeySorted(s)
    ensures forall c :: Ties(InsertByKey(s, p), c) == Ties(s + [p], c)
  {
    forall c
      ensures Ties(InsertByKey(s, p), c) == Ties(s + [p], c)
    {
      InsertByKeyStableAt(s, p, c);
    }
  }

  /** `y > best_y`, where an absent best stands for `-math.inf`. */
  predicate Beats(y: real, best: Option<real>) {
    best.None? || y > best.value
  }

  /** The largest y of a point list; absent for the empty list. */
  function MaxY(pts: seq<Point>): (m: Option<real>)
    ensures m.None? <==> |pts| == 0
    ensures m.Some? ==> forall i :: 0 <= i < |pts| ==> pts[i].y <= m.value
    ensures m.Some? ==> exists i :: 0 <= i < |pts| && pts[i].y == m.value
    decreases |pts|
  {
    if |pts| == 0 then None
    else
      var init, p := pts[..|pts| - 1], pts[|pts| - 1];
      assert pts == init + [p];
      var m := MaxY(init);
      if Beats(p.y, m) then Some(p.y) else m
  }

  /** A point beats the running best exactly when it is above every earlier point. */
  lemma {:induction false} BeatsMaxIffAboveAll(y: real, pts: seq<Point>)
    ensures Beats(y, MaxY(pts)) <==> forall j :: 0 <= j < |pts| ==> pts[j].y < y
  {
  }

  /** The front of an already sorted list: the points that beat every earlier y, in order. */
  function Front(pts: seq<Point>): (front: seq<Point>)
    ensures |front| <= |pts|
    ensures |front| == 0 <==> |pts| == 0
    ensures forall p :: p in front ==> p in pts
    ensures forall i, j :: 0 <= i < j < |front| ==> front[i].y < front[j].y
    ensures |front| > 0 ==> front[|front| - 1].y == MaxY(pts).value
    decreases |pts|
  {
    if |pts| == 0 then []
    else
      var init, p := pts[..|pts| - 1], pts[|pts| - 1];
      assert pts == init + [p];
      var f := Front(init);
      if Beats(p.y, MaxY(init)) then f + [p] else f
  }

  lemma {:induction false} FrontSnoc(pts: seq<Point>, p: Point)
    ensures Front(pts + [p]) == if Beats(p.y, MaxY(pts)) then Front(pts) + [p] else Front(pts)
    ensures MaxY(pts + [p]) == if Beats(p.y, MaxY(pts)) then Some(p.y) else MaxY(pts)
  {
    assert (pts + [p])[..|pts|] == pts;
  }

  /** `pareto_front(points)`: the sort followed by the scan of the source, one point at a
      time, remembering the best y so far. */
  method ParetoFront(points: seq<Point>) returns (front: seq<Point>)
    ensures front == Front(SortByKey(points))
    ensures SubSeq(front, SortByKey(points))
    ensures |front| <= |points|
    ensures |points| > 0 ==> |front| > 0 && front[0] == SortByKey(points)[0]
    ensures forall p :: p in front ==> p in points
    ensures forall i, j :: 0 <= i < j < |front| ==> front[i].x <= front[j].x && front[i].y < front[j].y
    ensures MaxY(front) == MaxY(points)
  {
    var pts := SortByKey(points);
    front := [];
    var bestY: Option<real> := None;
    var i := 0;
    while i < |pts|
      invariant 0 <= i <= |pts|
      invariant front == Front(pts[..i])
      invariant bestY == MaxY(pts[..i])
    {
      var p := pts[i];
      assert pts[..i + 1] == pts[..i] + [p];
      FrontSnoc(pts[..i], p);
      if Beats(p.y, bestY) {
        front := front + [p];
        bestY := Some(p.y);
      }
      i := i + 1;
    }
    assert pts[..i] == pts;
    assert forall p :: p in pts ==> p in multiset(points);
    FrontXAscending(pts);
    FrontIsSubsequence(pts);
    if |points| > 0 {
      FrontStartsWithFirst(pts);
    }
    FrontKeepsMaxY(pts);
    SortKeepsMaxY(points);
  }

  /** The front of a key-sorted list is an order-preserving subsequence of it. */
  lemma {:induction false} FrontIsSubsequence(pts: seq<Point>)
    ensures SubSeq(Front(pts), pts)
    decreases |pts|
  {
    if |pts| > 0 {
      var init, p := pts[..|pts| - 1], pts[|pts| - 1];
      assert pts == init + [p];
      FrontIsSubsequence(init);
      FrontSnoc(init, p);
      if Beats(p.y, MaxY(init)) {
        SubSeqAppendBoth(Front(init), init, p);
      } else {
        SubSeqAppendRight(Front(init), init, p);
      }
    }
  }

  /** Along the front of a key-sorted list x never decreases. */
  lemma {:induction false} FrontXAscending(pts: seq<Point>)
    requires KeySorted(pts)
    ensures forall i, j :: 0 <= i < j < |Front(pts)| ==> Front(pts)[i].x <= Front(pts)[j].x
    decreases |pts|
  {
    if |pts| > 0 {
      var init, p := pts[..|pts| - 1], pts[|pts| - 1];
      assert pts == init + [p];
      KeySortedInit(init, p);
      FrontXAscending(init);
      FrontSnoc(init, p);
      if Beats(p.y, MaxY(init)) {
        AppendKeepsXAscending(Front(init), p);
      }
    }
  }

  /** A key-sorted list without its last point is key-sorted, and that point has the largest x. */
  lemma {:induction false} KeySortedInit(init: seq<Point>, p: Point)
    requires KeySorted(init + [p])
    ensures KeySorted(init)
    ensures forall q :: q in init ==> q.x <= p.x
  {
    var pts := init + [p];
    forall i, j | 0 <= i < j < |init|
      ensures !KeyLess(init[j], init[i])
    {
      assert pts[i] == init[i] && pts[j] == init[j];
    }
    forall q | q in init
      ensures q.x <= p.x
    {
      var k :| 0 <= k < |init| && init[k] == q;
      assert !KeyLess(pts[|init|], pts[k]);
    }
  }

  /** Appending a point with x no smaller than any member keeps x non-decreasing. */
  lemma {:induction false} AppendKeepsXAscending(f: seq<Point>, p: Point)
    requires forall i, j :: 0 <= i < j < |f| ==> f[i].x <= f[j].x
    requires forall q :: q in f ==> q.x <= p.x
    ensures forall i, j :: 0 <= i < j < |f + [p]| ==> (f + [p])[i].x <= (f + [p])[j].x
  {
    var g := f + [p];
    forall i, j | 0 <= i < j < |g|
      ensures g[i].x <= g[j].x
    {
      assert g[i] == f[i];
      if j < |f| {
        assert g[j] == f[j];
      }
    }
  }

  /** A non-empty list's front starts with its first point. */
  lemma {:induction false} FrontStartsWithFirst(pts: seq<Point>)
    requires |pts| > 0
    ensures Front(pts)[0] == pts[0]
    decreases |pts|
  {
    var init, p := pts[..|pts| - 1], pts[|pts| - 1];
    assert pts == init + [p];
    FrontSnoc(init, p);
    if |init| > 0 {
      FrontStartsWithFirst(init);
    }
  }

  /** The front reaches the highest y of the whole list. */
  lemma {:induction false} FrontKeepsMaxY(pts: seq<Point>)
    ensures MaxY(Front(pts)) == MaxY(pts)
  {
    var f := Front(pts);
    if |f| > 0 {
      var m := MaxY(f);
      assert f[|f| - 1].y <= m.value;
      var i :| 0 <= i < |f| && f[i].y == m.value;
      assert f[i] in pts;
      var k :| 0 <= k < |pts| && pts[k] == f[i];
    }
  }

  /** The front of a list extends the front of every prefix of it. */
  lemma {:induction false} FrontExtendsPrefixFront(pts: seq<Point>, n: nat)
    requires n <= |pts|
    ensures |Front(pts[..n])| <= |Front(pts)|
    ensures Front(pts)[..|Front(pts[..n])|] == Front(pts[..n])
    decreases |pts|
  {
    if n < |pts| {
      var init, p := pts[..|pts| - 1], pts[|pts| - 1];
      assert pts == init + [p];
      assert init[..n] == pts[..n];
      FrontExtendsPrefixFront(init, n);
      FrontSnoc(init, p);
    } else {
      assert pts[..n] == pts;
    }
  }

  /** Point `i` has a front point at or before it in sorted order whose y is at least its own. */
  predicate Dominated(pts: seq<Point>, i: int)
    requires 0 <= i < |pts|
  {
    exists k :: 0 <= k < |Front(pts)| && pts[i].y <= Front(pts)[k].y && Front(pts)[k] in pts[..i + 1]
  }

  /** Point `i` is dominated in y by a front point at or before it in sorted order. */
  lemma {:induction false} FrontDominatesAt(pts: seq<Point>, i: nat)
    requires i < |pts|
    ensures Dominated(pts, i)
  {
    var pre := pts[..i + 1];
    FrontExtendsPrefixFront(pts, i + 1);
    var fp := Front(pre);
    var k := |fp| - 1;
    assert pre[i] == pts[i];
    assert pts[i].y <= MaxY(pre).value == fp[k].y;
    assert fp[k] in pre;
    assert Front(pts)[k] == fp[k];
  }

  /** Every point is dominated in y by a front point at or before it in sorted order. */
  lemma {:induction false} FrontDominates(pts: seq<Point>)
    ensures forall i :: 0 <= i < |pts| ==> Dominated(pts, i)
  {
    forall i | 0 <= i < |pts|
      ensures Dominated(pts, i)
    {
      FrontDominatesAt(pts, i);
    }
  }

  /** `i` holds a record high: its y beats the y of every earlier point. */
  predicate RecordHigh(pts: seq<Point>, i: int)
    requires 0 <= i < |pts|
  {
    forall j :: 0 <= j < i ==> pts[j].y < pts[i].y
  }

  /** Every record high is on the front. */
  lemma {:induction false} RecordHighOnFront(pts: seq<Point>, i: nat)
    requires i < |pts| && RecordHigh(pts, i)
    ensures pts[i] in Front(pts)
  {
    RecordHighClosesPrefixFront(pts, i);
    FrontExtendsPrefixFront(pts, i + 1);
    var fp := Front(pts[..i + 1]);
    assert Front(pts)[..|fp|][|fp| - 1] == pts[i];
  }

  /** A record high is the last point of the front of the prefix it ends. */
  lemma {:induction false} RecordHighClosesPrefixFront(pts: seq<Point>, i: nat)
    requires i < |pts| && RecordHigh(pts, i)
    ensures |Front(pts[..i + 1])| > 0 && Front(pts[..i + 1])[|Front(pts[..i + 1])| - 1] == pts[i]
  {
    var init := pts[..i];
    assert pts[..i + 1] == init + [pts[i]];
    assert forall j :: 0 <= j < |init| ==> init[j].y < pts[i].y by {
      assert forall j :: 0 <= j < |init| ==> init[j] == pts[j];
    }
    BeatsMaxIffAboveAll(pts[i].y, init);
    FrontSnoc(init, pts[i]);
  }

  /** Every front point is a record high. */
  lemma {:induction false} FrontPointIsRecordHigh(pts: seq<Point>, q: Point)
    requires q in Front(pts)
    ensures exists i :: 0 <= i < |pts| && pts[i] == q && RecordHigh(pts, i)
    decreases |pts|
  {
    var init, p := pts[..|pts| - 1], pts[|pts| - 1];
    assert pts == init + [p];
    FrontSnocCases(init, p, q);
    if q in Front(init) {
      FrontPointIsRecordHigh(init, q);
      var i :| 0 <= i < |init| && init[i] == q && RecordHigh(init, i);
      RecordHighInPrefix(pts, |init|, i);
    } else {
      RecordHighAtEnd(init, p);
    }
  }

  /** A front point of an extended list is an old front point or the new point, and then the
      new point is above everything before it. */
  lemma {:induction false} FrontSnocCases(init: seq<Point>, p: Point, q: Point)
    requires q in Front(init + [p])
    ensures q in Front(init) || (q == p && forall j :: 0 <= j < |init| ==> init[j].y < p.y)
  {
    FrontSnoc(init, p);
    if q !in Front(init) {
      BeatsMaxIffAboveAll(p.y, init);
    }
  }

  /** Record highs of a prefix are record highs of the whole list. */
  lemma {:induction false} RecordHighInPrefix(pts: seq<Point>, n: nat, i: nat)
    requires i < n <= |pts| && RecordHigh(pts[..n], i)
    ensures RecordHigh(pts, i)
  {
    forall j | 0 <= j < i
      ensures pts[j].y < pts[i].y
    {
      assert pts[..n][j] == pts[j] && pts[..n][i] == pts[i];
    }
  }

  /** A last point above everything before it is a record high. */
  lemma {:induction false} RecordHighAtEnd(init: seq<Point>, p: Point)
    requires forall j :: 0 <= j < |init| ==> init[j].y < p.y
    ensures RecordHigh(init + [p], |init|)
  {
    var pts := init + [p];
    forall j | 0 <= j < |init|
      ensures pts[j].y < pts[|init|].y
    {
      assert pts[j] == init[j];
    }
  }

  /** The front is exactly the record highs of the sorted list. */
  lemma {:induction false} FrontIsRecordHighs(pts: seq<Point>)
    ensures forall i :: 0 <= i < |pts| && RecordHigh(pts, i) ==> pts[i] in Front(pts)
    ensures forall q :: q in Front(pts) ==> exists i :: 0 <= i < |pts| && pts[i] == q && RecordHigh(pts, i)
  {
    forall i | 0 <= i < |pts| && RecordHigh(pts, i)
      ensures pts[i] in Front(pts)
    {
      RecordHighOnFront(pts, i);
    }
    forall q | q in Front(pts)
      ensures exists i :: 0 <= i < |pts| && pts[i] == q && RecordHigh(pts, i)
    {
      FrontPointIsRecordHigh(pts, q);
    }
  }

  /** Sorting does not change the highest y. */
  lemma {:induction false} SortKeepsMaxY(points: seq<Point>)
    ensures MaxY(SortByKey(points)) == MaxY(points)
  {
    var s := SortByKey(points);
    if |points| > 0 {
      var ms, mp := MaxY(s).value, MaxY(points).value;
      var i :| 0 <= i < |s| && s[i].y == ms;
      var k :| 0 <= k < |points| && points[k].y == mp;
      assert s[i] in multiset(points);
      var i' :| 0 <= i' < |points| && points[i'] == s[i];
      assert ms <= mp;
      assert points[k] in multiset(s);
      var k' :| 0 <= k' < |s| && s[k'] == points[k];
      assert mp <= ms;
    }
  }

  /** No point of `points` beats `p` from its left: every point with smaller x has smaller y,
      and no point with the same x has larger y. */
  predicate Undominated(p: Point, points: seq<Point>) {
    forall q :: q in points ==> (q.x < p.x ==> q.y < p.y) && (q.x == p.x ==> q.y <= p.y)
  }

  /** `p` is the earliest point of `points` at its coordinates: the one a stable sort puts
      first among its ties. */
  predicate FirstOfTies(p: Point, points: seq<Point>) {
    |Ties(points, p)| > 0 && Ties(points, p)[0] == p
  }

  /** The earliest point at the coordinates of `c` heads the ties of `c`. */
  lemma {:induction false} TiesHeadAt(s: seq<Point>, t: nat, c: Point)
    requires t < |s| && SameCoordinates(s[t], c)
    requires forall u :: 0 <= u < t ==> !SameCoordinates(s[u], c)
    ensures |Ties(s, c)| > 0 && Ties(s, c)[0] == s[t]
    decreases |s|
  {
    var init, last := s[..|s| - 1], s[|s| - 1];
    assert s == init + [last];
    TiesSnoc(init, last, c);
    if t == |s| - 1 {
      forall q | q in init
        ensures !SameCoordinates(q, c)
      {
        var u :| 0 <= u < |init| && init[u] == q;
        assert s[u] == q;
      }
      NoTies(init, c);
    } else {
      forall u | 0 <= u < t
        ensures !SameCoordinates(init[u], c)
      {
        assert init[u] == s[u];
      }
      assert init[t] == s[t];
      TiesHeadAt(init, t, c);
    }
  }

  /** The position of the head of the ties of `c`: no earlier point has its coordinates. */
  function FirstTie(s: seq<Point>, c: Point): (u: nat)
    requires |Ties(s, c)| > 0
    ensures u < |s| && s[u] == Ties(s, c)[0] && SameCoordinates(s[u], c)
    ensures forall v :: 0 <= v < u ==> !SameCoordinates(s[v], c)
    decreases |s|
  {
    var init, last := s[..|s| - 1], s[|s| - 1];
    assert s == init + [last];
    TiesSnoc(init, last, c);
    if |Ties(init, c)| > 0 then
      FirstTie(init, c)
    else
      assert forall v :: 0 <= v < |init| ==> init[v] !in Ties(init, c);
      |s| - 1
  }

  /** Every front point is the earliest of its ties. */
  lemma {:induction false} FrontPointFirstOfTies(s: seq<Point>, p: Point)
    requires p in Front(s)
    ensures FirstOfTies(p, s)
  {
    FrontPointIsRecordHigh(s, p);
    var i :| 0 <= i < |s| && s[i] == p && RecordHigh(s, i);
    forall u | 0 <= u < i
      ensures !SameCoordinates(s[u], p)
    {
      assert s[u].y < s[i].y;
    }
    TiesHeadAt(s, i, p);
  }

  /** On a key-sorted sequence, a front point is undominated. */
  lemma {:induction false} FrontPointUndominated(s: seq<Point>, p: Point)
    requires KeySorted(s) && p in Front(s)
    ensures Undominated(p, s)
  {
    FrontPointIsRecordHigh(s, p);
    var i :| 0 <= i < |s| && s[i] == p && RecordHigh(s, i);
    forall q | q in s
      ensures (q.x < p.x ==> q.y < p.y) && (q.x == p.x ==> q.y <= p.y)
    {
      var j :| 0 <= j < |s| && s[j] == q;
      if KeyLess(q, p) {
        assert j < i;
      }
    }
  }

  /** On a key-sorted sequence, an undominated point that heads its ties is on the front. */
  lemma {:induction false} UndominatedOnFront(s: seq<Point>, p: Point)
    requires KeySorted(s)
    requires Undominated(p, s) && FirstOfTies(p, s)
    ensures p in Front(s)
  {
    var i := FirstTie(s, p);
    forall j | 0 <= j < i
      ensures s[j].y < s[i].y
    {
      assert !KeyLess(s[i], s[j]);
      assert !SameCoordinates(s[j], p);
      assert s[j] in s;
    }
    RecordHighOnFront(s, i);
  }

  /** What the front means for the unsorted input, first half: a front point is undominated,
      and of several points at its coordinates it is the earliest in the input. */
  lemma {:induction false} ParetoFrontSound(points: seq<Point>, p: Point)
    ensures p in Front(SortByKey(points)) ==> Undominated(p, points) && FirstOfTies(p, points)
  {
    var s := SortByKey(points);
    if p in Front(s) {
      FrontPointUndominated(s, p);
      forall q | q in points
        ensures q in s
      {
        assert q in multiset(points);
      }
      FrontPointFirstOfTies(s, p);
      assert Ties(s, p) == Ties(points, p);
    }
  }

  /** Second half: an undominated input point that is the earliest at its coordinates is on
      the front. */
  lemma {:induction false} ParetoFrontComplete(points: seq<Point>, p: Point)
    requires Undominated(p, points) && FirstOfTies(p, points)
    ensures p in Front(SortByKey(points))
  {
    var s := SortByKey(points);
    forall q | q in s
      ensures q in points
    {
      assert q in multiset(s);
    }
    assert Ties(s, p) == Ties(points, p);
    UndominatedOnFront(s, p);
  }

  /** `pareto_front` exactly: a point is on the front of the unsorted input if and only if it
      is undominated and the earliest input point at its coordinates. */
  lemma {:induction false} ParetoFrontExact(points: seq<Point>, p: Point)
    ensures p in Front(SortByKey(points)) <==> Undominated(p, points) && FirstOfTies(p, points)
  {
    ParetoFrontSound(points, p);
    if Undominated(p, points) && FirstOfTies(p, points) {
      ParetoFrontComplete(points, p);
    }
  }

  /** Of several input points at the same coordinates, only the earliest can be on the front:
      every later one is dropped, dominated or not. */
  lemma {:induction false} TiedPointsKeepTheEarlier(points: seq<Point>, p: Point, q: Point)
    requires p in points && q in points && p != q && SameCoordinates(p, q)
    requires FirstOfTies(p, points)
    ensures q !in Front(SortByKey(points))
  {
    ParetoFrontSound(points, q);
    TiesOfSameCoordinates(points, p, q);
  }

  /** The ties of two points at the same coordinates are the same subsequence. */
  lemma {:induction false} TiesOfSameCoordinates(s: seq<Point>, c: Point, d: Point)
    requires SameCoordinates(c, d)
    ensures Ties(s, c) == Ties(s, d)
    decreases |s|
  {
    if |s| > 0 {
      TiesOfSameCoordinates(s[..|s| - 1], c, d);
    }
  }
}

=== FILE: records.dfy ===
/** The benchmark record as both the validation script and the site read it, with every
    optional part explicit, and the safe accessors that turn an absent nested object into the
    same default an absent field gets. */
module Records {
  import opened Wrappers

  /** The `config` object; only `blocking` is read by the core. */
  datatype Config = Config(blocking: Option<string>)

  /** The `metrics_mean` object: throughput, the recomputed ESS/sec and the badge tags. */
  datatype Metrics = Metrics(
    samplesPerSec: Option<real>,
    essPerSecCalc: Option<real>,
    badges: Option<seq<string>>)

  /** The `scaling` object: two lists meant to be index-paired. */
  datatype Scaling = Scaling(chainsList: Option<seq<real>>, essPerSecList: Option<seq<real>>)

  /** One entry of `J_sweep`. */
  datatype SweepEntry = SweepEntry(j: real, essPerSec: real)

  /** One benchmark submission. Fields the core never reads (contributor, commit, URLs, rho1,
      tau) are not represented. */
  datatype Record = Record(
    task: Option<string>,
    hardwareClass: Option<string>,
    recipeName: Option<string>,
    methodName: Option<string>,
    config: Option<Config>,
    metricsMean: Option<Metrics>,
    scaling: Option<Scaling>,
    jSweep: Option<seq<SweepEntry>>)

  /** `entry.config?.blocking || ""`. */
  function Blocking(r: Record): (b: string)
    ensures r.config.None? ==> b == ""
    ensures r.config.Some? && r.config.value.blocking.Some? ==> b == r.config.value.blocking.value
  {
    if r.config.Some? then r.config.value.blocking.GetOr("") else ""
  }

  /** `entry.metrics_mean?.badges || []`. */
  function Badges(r: Record): (bs: seq<string>)
    ensures r.metricsMean.None? ==> bs == []
  {
    if r.metricsMean.Some? then r.metricsMean.value.badges.GetOr([]) else []
  }

  /** `(d.scaling || {}).chains_list || []`. */
  function ChainsList(r: Record): (cs: seq<real>)
    ensures r.scaling.None? ==> cs == []
  {
    if r.scaling.Some? then r.scaling.value.chainsList.GetOr([]) else []
  }

  /** `(d.scaling || {}).ESS_per_sec_list || []`. */
  function EssList(r: Record): (es: seq<real>)
    ensures r.scaling.None? ==> es == []
  {
    if r.scaling.Some? then r.scaling.value.essPerSecList.GetOr([]) else []
  }

  /** `d.J_sweep || []`. */
  function Sweep(r: Record): (js: seq<SweepEntry>)
    ensures r.jSweep.None? ==> js == []
  {
    r.jSweep.GetOr([])
  }
}

=== FILE: seqs.dfy ===
/** Generic sequence facts shared by every component: order-preserving subsequences,
    `Array.prototype.filter`, and the insertion-ordered de-duplication of a JavaScript `Set`. */
module Seqs {

  /** `a` occurs in `b` in order, possibly with gaps (matched greedily from the end). */
  predicate SubSeq<T(==)>(a: seq<T>, b: seq<T>)
    decreases |b|
  {
    if |a| == 0 then true
    else if |b| == 0 then false
    else if a[|a| - 1] == b[|b| - 1] then SubSeq(a[..|a| - 1], b[..|b| - 1])
    else SubSeq(a, b[..|b| - 1])
  }

  /** No element occurs twice. */
  predicate NoDup<T(==)>(s: seq<T>) {
    forall i, j :: 0 <= i < j < |s| ==> s[i] != s[j]
  }

  lemma {:induction false} SubSeqLength<T>(a: seq<T>, b: seq<T>)
    requires SubSeq(a, b)
    ensures |a| <= |b|
    decreases |b|
  {
    if |a| > 0 {
      if a[|a| - 1] == b[|b| - 1] {
        SubSeqLength(a[..|a| - 1], b[..|b| - 1]);
      } else {
        SubSeqLength(a, b[..|b| - 1]);
      }
    }
  }

  lemma {:induction false} SubSeqMembers<T>(a: seq<T>, b: seq<T>)
    requires SubSeq(a, b)
    ensures forall x :: x in a ==> x in b
    decreases |b|
  {
    if |a| > 0 {
      var b' := b[..|b| - 1];
      if a[|a| - 1] == b[|b| - 1] {
        SubSeqMembers(a[..|a| - 1], b');
        assert a == a[..|a| - 1] + [a[|a| - 1]];
      } else {
        SubSeqMembers(a, b');
      }
      assert b == b' + [b[|b| - 1]];
    }
  }

  /** Dropping the last element of the smaller sequence keeps it a subsequence. */
  lemma {:induction false} SubSeqDropLast<T>(a: seq<T>, b: seq<T>)
    requires |a| > 0 && SubSeq(a, b)
    ensures SubSeq(a[..|a| - 1], b)
    decreases |b|, 0
  {
    var b' := b[..|b| - 1];
    if a[|a| - 1] == b[|b| - 1] {
      SubSeqAppendRight(a[..|a| - 1], b', b[|b| - 1]);
    } else {
      SubSeqDropLast(a, b');
      SubSeqAppendRight(a[..|a| - 1], b', b[|b| - 1]);
    }
    assert b' + [b[|b| - 1]] == b;
  }

  /** Appending to the larger sequence keeps a subsequence. */
  lemma {:induction false} SubSeqAppendRight<T>(a: seq<T>, b: seq<T>, x: T)
    requires SubSeq(a, b)
    ensures SubSeq(a, b + [x])
    decreases |b|, 1
  {
    assert (b + [x])[..|b|] == b;
    if |a| > 0 && a[|a| - 1] == x {
      SubSeqDropLast(a, b);
    }
  }

  /** Appending the same element to both sides keeps a subsequence. */
  lemma {:induction false} SubSeqAppendBoth<T>(a: seq<T>, b: seq<T>, x: T)
    requires SubSeq(a, b)
    ensures SubSeq(a + [x], b + [x])
  {
    assert (a + [x])[..|a|] == a;
    assert (b + [x])[..|b|] == b;
  }

  lemma {:induction false} SubSeqRefl<T>(a: seq<T>)
    ensures SubSeq(a, a)
    decreases |a|
  {
    if |a| > 0 {
      SubSeqRefl(a[..|a| - 1]);
    }
  }

  /** `Array.prototype.filter`: the elements satisfying `p`, in their original order. */
  function Filter<T(==,!new)>(s: seq<T>, p: T -> bool): (r: seq<T>)
    ensures |r| <= |s|
    ensures forall x :: x in r <==> x in s && p(x)
    decreases |s|
  {
    if |s| == 0 then []
    else
      var init := s[..|s| - 1];
      assert s == init + [s[|s| - 1]];
      Filter(init, p) + (if p(s[|s| - 1]) then [s[|s| - 1]] else [])
  }

  lemma {:induction false} FilterSnoc<T(!new)>(s: seq<T>, x: T, p: T -> bool)
    ensures Filter(s + [x], p) == Filter(s, p) + (if p(x) then [x] else [])
  {
    assert (s + [x])[..|s|] == s;
  }

  /** Filtering keeps the order of the input: the result is a subsequence. */
  lemma {:induction false} FilterIsSubSeq<T(!new)>(s: seq<T>, p: T -> bool)
    ensures SubSeq(Filter(s, p), s)
    decreases |s|
  {
    if |s| > 0 {
      var init, x := s[..|s| - 1], s[|s| - 1];
      assert s == init + [x];
      FilterIsSubSeq(init, p);
      FilterSnoc(init, x, p);
      if p(x) {
        assert Filter(s, p) == Filter(init, p) + [x];
        SubSeqAppendBoth(Filter(init, p), init, x);
      } else {
        assert Filter(s, p) == Filter(init, p);
        SubSeqAppendRight(Filter(init, p), init, x);
      }
    }
  }

  /** Filtering an already filtered sequence with the same predicate changes nothing. */
  lemma {:induction false} FilterIdempotent<T(!new)>(s: seq<T>, p: T -> bool)
    ensures Filter(Filter(s, p), p) == Filter(s, p)
    decreases |s|
  {
    if |s| > 0 {
      var init, x := s[..|s| - 1], s[|s| - 1];
      assert s == init + [x];
      var f := Filter(init, p);
      FilterSnoc(init, x, p);
      FilterIdempotent(init, p);
      if p(x) {
        assert Filter(s, p) == f + [x];
        FilterSnoc(f, x, p);
      } else {
        assert Filter(s, p) == f;
      }
    }
  }

  /** A predicate that holds of every element keeps the whole sequence. */
  lemma {:induction false} FilterKeepsAll<T(!new)>(s: seq<T>, p: T -> bool)
    requires forall x :: x in s ==> p(x)
    ensures Filter(s, p) == s
    decreases |s|
  {
    if |s| > 0 {
      var init, x := s[..|s| - 1], s[|s| - 1];
      assert s == init + [x];
      FilterKeepsAll(init, p);
    }
  }

  /** A stronger predicate keeps a subsequence of what a weaker one keeps. */
  lemma {:induction false} FilterMonotone<T(!new)>(s: seq<T>, strong: T -> bool, weak: T -> bool)
    requires forall x :: x in s && strong(x) ==> weak(x)
    ensures SubSeq(Filter(s, strong), Filter(s, weak))
    decreases |s|
  {
    if |s| == 0 {
    } else {
      var init, x := s[..|s| - 1], s[|s| - 1];
      assert s == init + [x];
      FilterSnoc(init, x, strong);
      FilterSnoc(init, x, weak);
      FilterMonotone(init, strong, weak);
      var fs, fw := Filter(init, strong), Filter(init, weak);
      if strong(x) {
        assert Filter(s, strong) == fs + [x] && Filter(s, weak) == fw + [x];
        SubSeqAppendBoth(fs, fw, x);
      } else if weak(x) {
        assert Filter(s, strong) == fs && Filter(s, weak) == fw + [x];
        SubSeqAppendRight(fs, fw, x);
      } else {
        assert Filter(s, strong) == fs && Filter(s, weak) == fw;
      }
    }
  }

  /** The distinct elements of `s` in order of first occurrence, as the iteration order of
      `new Set(s)` gives them. */
  function Distinct<T(==,!new)>(s: seq<T>): (r: seq<T>)
    ensures forall x :: x in r <==> x in s
    ensures NoDup(r)
    decreases |s|
  {
    if |s| == 0 then []
    else
      var init := s[..|s| - 1];
      assert s == init + [s[|s| - 1]];
      var d := Distinct(init);
      if s[|s| - 1] in d then d else d + [s[|s| - 1]]
  }
}

=== FILE: series.dfy ===
/** The chart-side projections of the filtered records: the scaling and J-sweep line series,
    their shared label, and the two pure rules inside the Pareto scatter specification (the
    layer's null filter and the stroke-width emphasis). */
module Series {
  import opened Wrappers
  import opened Seqs
  import opened Strings
  import opened Records
  import opened Filters

  /** One vertex of the scaling chart. */
  datatype ScalingPoint = ScalingPoint(seriesLabel: string, chains: real, essPerSec: real)

  /** One vertex of the J-sweep chart. */
  datatype SweepPoint = SweepPoint(seriesLabel: string, j: real, essPerSec: real)

  /** The separator of the label template: blank, bullet (U+2022), blank. */
  const Bullet: string := [' ', '\U{2022}', ' ']

  /** `d.recipe_name || d.method || "recipe"`: the first non-empty name. */
  function LabelHead(r: Record): (h: string)
    ensures h != ""
    ensures r.recipeName.Some? && r.recipeName.value != "" ==> h == r.recipeName.value
    ensures !(r.recipeName.Some? && r.recipeName.value != "") ==>
      (if r.methodName.Some? && r.methodName.value != "" then h == r.methodName.value else h == "recipe")
  {
    if r.recipeName.Some? && r.recipeName.value != "" then r.recipeName.value
    else if r.methodName.Some? && r.methodName.value != "" then r.methodName.value
    else "recipe"
  }

  /** `${d.hardware_class}`: an absent value is rendered as the text "undefined". */
  function HardwareText(r: Record): string {
    r.hardwareClass.GetOr("undefined")
  }

  /** The series label `${recipe_name || method || "recipe"} • ${hardware_class}`. */
  function Label(r: Record): (l: string)
    ensures |l| == |LabelHead(r)| + |Bullet| + |HardwareText(r)|
    ensures l[..|LabelHead(r)|] == LabelHead(r)
    ensures l[|LabelHead(r)|..|LabelHead(r)| + |Bullet|] == Bullet
    ensures l[|LabelHead(r)| + |Bullet|..] == HardwareText(r)
  {
    LabelHead(r) + Bullet + HardwareText(r)
  }

  /** Two records share a series label, and so a line colour, exactly when their heads and
      hardware texts agree, provided neither head contains the bullet itself. */
  lemma {:induction false} SameLabelIff(r1: Record, r2: Record)
    requires '\U{2022}' !in LabelHead(r1) && '\U{2022}' !in LabelHead(r2)
    ensures Label(r1) == Label(r2) <==>
      LabelHead(r1) == LabelHead(r2) && HardwareText(r1) == HardwareText(r2)
  {
    var h1, h2, w1, w2 := LabelHead(r1), LabelHead(r2), HardwareText(r1), HardwareText(r2);
    if Label(r1) == Label(r2) {
      if |h1| < |h2| {
        BulletMarksHeadEnd(h1, w1, h2, w2);
      } else if |h2| < |h1| {
        BulletMarksHeadEnd(h2, w2, h1, w1);
      }
      assert h1 == Label(r1)[..|h1|] == Label(r2)[..|h2|] == h2;
      assert w1 == Label(r1)[|h1| + |Bullet|..] == Label(r2)[|h2| + |Bullet|..] == w2;
    }
  }

  /** With a bullet-free longer head, the bullet of the shorter head's label falls on a
      position where the longer head's label has no bullet. */
  lemma {:induction false} BulletMarksHeadEnd(h1: string, w1: string, h2: string, w2: string)
    requires |h1| < |h2| && '\U{2022}' !in h2
    ensures h1 + Bullet + w1 != h2 + Bullet + w2
  {
    var k := |h1| + 1;
    assert (h1 + Bullet + w1)[k] == '\U{2022}';
    if k < |h2| {
      assert (h2 + Bullet + w2)[k] == h2[k];
    } else {
      assert (h2 + Bullet + w2)[k] == ' ';
    }
  }

  /** A record whose recipe name is absent or empty is labelled by its non-empty method, on
      every point of both line charts. */
  lemma {:induction false} LabelFallsBackToMethod(r: Record)
    requires r.recipeName.None? || r.recipeName == Some("")
    requires r.methodName.Some? && r.methodName.value != ""
    ensures Label(r) == r.methodName.value + Bullet + HardwareText(r)
    ensures forall p :: p in ScalingPoints(r) ==> p.seriesLabel == r.methodName.value + Bullet + HardwareText(r)
    ensures forall p :: p in SweepPoints(r) ==> p.seriesLabel == r.methodName.value + Bullet + HardwareText(r)
  {
  }

  /** The records whose paired lists may be drawn: at least two chain counts, and exactly as
      many ESS/sec values. */
  predicate PairedScaling(r: Record) {
    |ChainsList(r)| >= 2 && |ChainsList(r)| == |EssList(r)|
  }

  /** The scaling points one record contributes: one per index pair, or none at all. */
  function ScalingPoints(r: Record): (ps: seq<ScalingPoint>)
    ensures PairedScaling(r) ==> |ps| == |ChainsList(r)|
    ensures !PairedScaling(r) ==> ps == []
    ensures forall i :: 0 <= i < |ps| ==>
      ps[i] == ScalingPoint(Label(r), ChainsList(r)[i], EssList(r)[i])
  {
    var chains, ess := ChainsList(r), EssList(r);
    if |chains| >= 2 && |chains| == |ess| then
      seq(|chains|, i requires 0 <= i < |chains| => ScalingPoint(Label(r), chains[i], ess[i]))
    else []
  }

  /** The scaling series of a record list: each record's points, in record order. */
  function ScalingSeries(data: seq<Record>): (series: seq<ScalingPoint>)
    decreases |data|
  {
    if |data| == 0 then []
    else ScalingSeries(data[..|data| - 1]) + ScalingPoints(data[|data| - 1])
  }

  /** `renderScaling`: the nested `forEach` loops pushing one point per index pair. */
  method RenderScaling(data: seq<Record>) returns (series: seq<ScalingPoint>)
    ensures series == ScalingSeries(data)
    ensures forall p :: p in series ==> exists r :: r in data && PairedScaling(r) && p in ScalingPoints(r)
  {
    series := [];
    var n := 0;
    while n < |data|
      invariant 0 <= n <= |data|
      invariant series == ScalingSeries(data[..n])
    {
      var d := data[n];
      var chains, ess := ChainsList(d), EssList(d);
      if |chains| >= 2 && |chains| == |ess| {
        var idx := 0;
        ghost var before := series;
        while idx < |chains|
          invariant 0 <= idx <= |chains|
          invariant series == before + ScalingPoints(d)[..idx]
        {
          series := series + [ScalingPoint(Label(d), chains[idx], ess[idx])];
          idx := idx + 1;
          assert ScalingPoints(d)[..idx] == ScalingPoints(d)[..idx - 1] + [ScalingPoints(d)[idx - 1]];
        }
        assert ScalingPoints(d)[..idx] == ScalingPoints(d);
      }
      assert data[..n + 1][..n] == data[..n];
      n := n + 1;
    }
    assert data[..n] == data;
    ScalingSeriesOrigin(data);
  }

  /** Every scaling point stems from a record of the input with valid pairing. */
  lemma {:induction false} ScalingSeriesOrigin(data: seq<Record>)
    ensures forall p :: p in ScalingSeries(data) ==>
      exists r :: r in data && PairedScaling(r) && p in ScalingPoints(r)
    decreases |data|
  {
    if |data| > 0 {
      var init, last := data[..|data| - 1], data[|data| - 1];
      assert data == init + [last];
      ScalingSeriesOrigin(init);
    }
  }

  /** The series of concatenated record lists is the concatenation of their series: output
      order follows record order. */
  lemma {:induction false} ScalingSeriesAppend(a: seq<Record>, b: seq<Record>)
    ensures ScalingSeries(a + b) == ScalingSeries(a) + ScalingSeries(b)
    decreases |b|
  {
    if |b| > 0 {
      var init, last := b[..|b| - 1], b[|b| - 1];
      assert a + b == (a + init) + [last];
      assert (a + b)[..|a + b| - 1] == a + init;
      ScalingSeriesAppend(a, init);
    } else {
      assert a + b == a;
    }
  }

  /** A record list with no validly paired record draws no scaling line. */
  lemma {:induction false} ScalingSeriesEmpty(data: seq<Record>)
    requires forall r :: r in data ==> !PairedScaling(r)
    ensures ScalingSeries(data) == []
    decreases |data|
  {
    if |data| > 0 {
      var init := data[..|data| - 1];
      assert forall r :: r in init ==> r in data;
      ScalingSeriesEmpty(init);
    }
  }

  /** The J-sweep points one record contributes: one per `J_sweep` entry. */
  function SweepPoints(r: Record): (ps: seq<SweepPoint>)
    ensures |ps| == |Sweep(r)|
    ensures forall i :: 0 <= i < |ps| ==>
      ps[i] == SweepPoint(Label(r), Sweep(r)[i].j, Sweep(r)[i].essPerSec)
  {
    var js := Sweep(r);
    seq(|js|, i requires 0 <= i < |js| => SweepPoint(Label(r), js[i].j, js[i].essPerSec))
  }

  /** The J-sweep series of a record list: each record's points, in record order. */
  function SweepSeries(data: seq<Record>): (series: seq<SweepPoint>)
    decreases |data|
  {
    if |data| == 0 then []
    else SweepSeries(data[..|data| - 1]) + SweepPoints(data[|data| - 1])
  }

  /** `renderJSweep`: the nested `forEach` loops pushing one point per sweep entry. */
  method RenderJSweep(data: seq<Record>) returns (series: seq<SweepPoint>)
    ensures series == SweepSeries(data)
    ensures |series| == SweepCount(data)
  {
    series := [];
    var n := 0;
    while n < |data|
      invariant 0 <= n <= |data|
      invariant series == SweepSeries(data[..n])
    {
      var d := data[n];
      var js := Sweep(d);
      var idx := 0;
      ghost var before := series;
      while idx < |js|
        invariant 0 <= idx <= |js|
        invariant series == before + SweepPoints(d)[..idx]
      {
        series := series + [SweepPoint(Label(d), js[idx].j, js[idx].essPerSec)];
        idx := idx + 1;
        assert SweepPoints(d)[..idx] == SweepPoints(d)[..idx - 1] + [SweepPoints(d)[idx - 1]];
      }
      assert SweepPoints(d)[..idx] == SweepPoints(d);
      assert data[..n + 1][..n] == data[..n];
      n := n + 1;
    }
    assert data[..n] == data;
    SweepSeriesLength(data);
  }

  /** The total number of sweep entries over a record list. */
  function SweepCount(data: seq<Record>): nat
    decreases |data|
  {
    if |data| == 0 then 0 else SweepCount(data[..|data| - 1]) + |Sweep(data[|data| - 1])|
  }

  /** The J-sweep series holds exactly one point per sweep entry of the input. */
  lemma {:induction false} SweepSeriesLength(data: seq<Record>)
    ensures |SweepSeries(data)| == SweepCount(data)
    decreases |data|
  {
    if |data| > 0 {
      SweepSeriesLength(data[..|data| - 1]);
    }
  }

  /** The series of concatenated record lists is the concatenation of their series. */
  lemma {:induction false} SweepSeriesAppend(a: seq<Record>, b: seq<Record>)
    ensures SweepSeries(a + b) == SweepSeries(a) + SweepSeries(b)
    decreases |b|
  {
    if |b| > 0 {
      var init, last := b[..|b| - 1], b[|b| - 1];
      assert a + b == (a + init) + [last];
      assert (a + b)[..|a + b| - 1] == a + init;
      SweepSeriesAppend(a, init);
    } else {
      assert a + b == a;
    }
  }

  /** Every J-sweep point stems from a record of the input. */
  lemma {:induction false} SweepSeriesOrigin(data: seq<Record>)
    ensures forall p :: p in SweepSeries(data) ==> exists r :: r in data && p in SweepPoints(r)
    decreases |data|
  {
    if |data| > 0 {
      var init, last := data[..|data| - 1], data[|data| - 1];
      assert data == init + [last];
      SweepSeriesOrigin(init);
    }
  }

  /** The scatter layer's filter `datum.metrics_mean && datum.metrics_mean.ESS_per_sec_calc != null`. */
  predicate Plottable(r: Record) {
    r.metricsMean.Some? && r.metricsMean.value.essPerSecCalc.Some?
  }

  /** The records the Pareto scatter draws, in input order. */
  function ScatterData(data: seq<Record>): (drawn: seq<Record>)
    ensures forall r :: r in drawn <==> r in data && r.metricsMean.Some? && r.metricsMean.value.essPerSecCalc.Some?
    ensures |drawn| <= |data|
  {
    Filter(data, Plottable)
  }

  /** The scatter keeps the input order. */
  lemma {:induction false} ScatterDataIsSubsequence(data: seq<Record>)
    ensures SubSeq(ScatterData(data), data)
  {
    FilterIsSubSeq(data, Plottable);
  }

  /** The marker stroke width: 3.0 when the badge list holds "frontier_breaker", else 1.8
      when it holds "frontier", else 0.6 (`indexof` is exact list membership). */
  function StrokeWidth(r: Record): (w: real)
    ensures w == 3.0 <==> "frontier_breaker" in Badges(r)
    ensures w == 1.8 <==> "frontier_breaker" !in Badges(r) && "frontier" in Badges(r)
    ensures w == 0.6 <==> "frontier_breaker" !in Badges(r) && "frontier" !in Badges(r)
  {
    var badges := Badges(r);
    if "frontier_breaker" in badges then 3.0
    else if "frontier" in badges then 1.8
    else 0.6
  }

  /** Every emphasised marker belongs to a record the "frontier only" filter keeps: the
      scatter's exact tags both contain the filter's substring. */
  lemma {:induction false} EmphasisedMarkersPassFrontierFilter(r: Record)
    requires StrokeWidth(r) > 0.6
    ensures Matches(r, NoFilter.(frontierOnly := true))
  {
    if "frontier_breaker" in Badges(r) {
      ContainsAtStart("frontier_breaker", "frontier");
    } else {
      ContainsSelf("frontier");
    }
  }

  /** More badges never thin a marker's stroke. */
  lemma {:induction false} StrokeWidthMonotone(r: Record, r': Record)
    requires forall b :: b in Badges(r) ==> b in Badges(r')
    ensures StrokeWidth(r) <= StrokeWidth(r')
  {
  }
}

=== FILE: strings.dfy ===
/** String operations the core relies on, written out because `string` in Dafny is a bare
    `seq<char>`: the default ordering of `Array.prototype.sort`, `String.prototype.includes`,
    `trim`, `split` on one separator character and `Array.prototype.join`. */
module Strings {

  /** The order `Array.prototype.sort()` uses without a comparator: lexicographic by
      character, a proper prefix sorting first. */
  predicate LexLess(a: string, b: string)
    decreases |a|
  {
    if |a| == 0 then |b| > 0
    else if |b| == 0 then false
    else if a[0] != b[0] then a[0] < b[0]
    else LexLess(a[1..], b[1..])
  }

  lemma {:induction false} LexLessIrreflexive(a: string)
    ensures !LexLess(a, a)
    decreases |a|
  {
    if |a| > 0 {
      LexLessIrreflexive(a[1..]);
    }
  }

  lemma {:induction false} LexLessAsymmetric(a: string, b: string)
    requires LexLess(a, b)
    ensures !LexLess(b, a)
    decreases |a|
  {
    if |a| > 0 && a[0] == b[0] {
      LexLessAsymmetric(a[1..], b[1..]);
    }
  }

  lemma {:induction false} LexLessTransitive(a: string, b: string, c: string)
    requires LexLess(a, b) && LexLess(b, c)
    ensures LexLess(a, c)
    decreases |a|
  {
    if |a| > 0 && a[0] == b[0] && b[0] == c[0] {
      LexLessTransitive(a[1..], b[1..], c[1..]);
    }
  }

  /** Any two different strings are ordered one way or the other. */
  lemma {:induction false} LexLessTotal(a: string, b: string)
    requires a != b
    ensures LexLess(a, b) || LexLess(b, a)
    decreases |a|
  {
    if |a| > 0 && |b| > 0 && a[0] == b[0] {
      assert a == [a[0]] + a[1..] && b == [b[0]] + b[1..];
      LexLessTotal(a[1..], b[1..]);
    }
  }

  /** A proper prefix sorts before the longer string. */
  lemma {:induction false} ProperPrefixIsLess(a: string, b: string)
    requires |a| < |b| && b[..|a|] == a
    ensures LexLess(a, b)
    decreases |a|
  {
    if |a| > 0 {
      assert b[1..][..|a| - 1] == a[1..];
      ProperPrefixIsLess(a[1..], b[1..]);
    }
  }

  /** `sub` occurs in `s` starting at position `i`. */
  predicate OccursAt(s: string, sub: string, i: int) {
    0 <= i && i + |sub| <= |s| && s[i..i + |sub|] == sub
  }

  /** `String.prototype.includes`: `sub` occurs in `s` at some position. */
  predicate Contains(s: string, sub: string) {
    exists i :: 0 <= i <= |s| && OccursAt(s, sub, i)
  }

  lemma {:induction false} ContainsAtStart(s: string, sub: string)
    requires |sub| <= |s| && s[..|sub|] == sub
    ensures Contains(s, sub)
  {
    assert OccursAt(s, sub, 0);
  }

  /** A substring containing a character that `s` lacks cannot occur in `s`. */
  lemma {:induction false} NotContainsMissingChar(s: string, sub: string, k: nat)
    requires k < |sub| && sub[k] !in s
    ensures !Contains(s, sub)
  {
    forall i | 0 <= i && i + |sub| <= |s|
      ensures !OccursAt(s, sub, i)
    {
      assert s[i..i + |sub|][k] == s[i + k];
    }
  }

  /** A string occurs in itself. */
  lemma {:induction false} ContainsSelf(s: string)
    ensures Contains(s, s)
  {
    ContainsAtStart(s, s);
  }

  /** The white space and line terminators `String.prototype.trim` strips (section 22.1.3.32
      of ECMA-262: WhiteSpace, which includes every Zs character, and LineTerminator). */
  predicate IsSpace(c: char) {
    || c == '\t' || c == '\n' || c == '\U{000B}' || c == '\U{000C}' || c == '\r' || c == ' '
    || c == '\U{00A0}' || c == '\U{1680}' || ('\U{2000}' <= c <= '\U{200A}')
    || c == '\U{2028}' || c == '\U{2029}' || c == '\U{202F}' || c == '\U{205F}'
    || c == '\U{3000}' || c == '\U{FEFF}'
  }

  /** Neither end of `s` is white space. */
  predicate IsTrimmed(s: string) {
    |s| == 0 || (!IsSpace(s[0]) && !IsSpace(s[|s| - 1]))
  }

  function TrimStart(s: string): (r: string)
    ensures |r| <= |s| && r == s[|s| - |r|..]
    ensures |r| == 0 || !IsSpace(r[0])
    ensures forall k :: 0 <= k < |s| - |r| ==> IsSpace(s[k])
    decreases |s|
  {
    if |s| > 0 && IsSpace(s[0]) then TrimStart(s[1..]) else s
  }

  function TrimEnd(s: string): (r: string)
    ensures |r| <= |s| && r == s[..|r|]
    ensures |r| == 0 || !IsSpace(r[|r| - 1])
    ensures forall k :: |r| <= k < |s| ==> IsSpace(s[k])
    decreases |s|
  {
    if |s| > 0 && IsSpace(s[|s| - 1]) then TrimEnd(s[..|s| - 1]) else s
  }

  /** `String.prototype.trim`. */
  function Trim(s: string): (r: string)
    ensures IsTrimmed(r)
    ensures Contains(s, r)
  {
    TrimOccurs(s);
    TrimEnd(TrimStart(s))
  }

  /** Trimming keeps a contiguous slice: the trimmed text sits where the start-trimmed text begins. */
  lemma {:induction false} TrimOccurs(s: string)
    ensures OccursAt(s, TrimEnd(TrimStart(s)), |s| - |TrimStart(s)|)
  {
    var t := TrimStart(s);
    var r := TrimEnd(t);
    assert |t| <= |s| && t == s[|s| - |t|..];
    assert |r| <= |t| && r == t[..|r|];
    PrefixOfSuffixOccurs(s, t, r);
  }

  /** A prefix `r` of a suffix `t` of `s` occurs in `s` where `t` begins. */
  lemma {:induction false} PrefixOfSuffixOccurs(s: string, t: string, r: string)
    requires |t| <= |s| && t == s[|s| - |t|..]
    requires |r| <= |t| && r == t[..|r|]
    ensures OccursAt(s, r, |s| - |t|)
  {
    var i := |s| - |t|;
    forall k | 0 <= k < |r|
      ensures s[i..i + |r|][k] == r[k]
    {
      assert r[k] == t[k];
    }
  }

  /** Trimming a string that already has no white space at either end changes nothing. */
  lemma {:induction false} TrimTrimmed(s: string)
    requires IsTrimmed(s)
    ensures Trim(s) == s
  {
  }

  /** A leading blank in front of a trimmed non-empty string is removed by `trim`. */
  lemma {:induction false} TrimLeadingBlank(s: string)
    requires IsTrimmed(s) && |s| > 0
    ensures Trim([' '] + s) == s
  {
    assert ([' '] + s)[1..] == s;
  }

  /** `s.split(sep)` for a one-character separator: the pieces between separators, in order;
      the empty string splits into one empty piece. */
  function Split(s: string, sep: char): (pieces: seq<string>)
    ensures |pieces| >= 1
  {
    SplitFrom(s, sep, "")
  }

  /** Splits `s`, the first piece starting with the already scanned characters `current`. */
  function SplitFrom(s: string, sep: char, current: string): (pieces: seq<string>)
    ensures |pieces| >= 1
    decreases |s|
  {
    if |s| == 0 then [current]
    else if s[0] == sep then [current] + SplitFrom(s[1..], sep, "")
    else SplitFrom(s[1..], sep, current + [s[0]])
  }

  /** No piece of a split holds the separator. */
  lemma {:induction false} SplitPiecesLackSeparator(s: string, sep: char, current: string)
    requires sep !in current
    ensures forall k :: 0 <= k < |SplitFrom(s, sep, current)| ==> sep !in SplitFrom(s, sep, current)[k]
    decreases |s|
  {
    if |s| > 0 {
      if s[0] == sep {
        SplitPiecesLackSeparator(s[1..], sep, "");
      } else {
        SplitPiecesLackSeparator(s[1..], sep, current + [s[0]]);
      }
    }
  }

  /** A string without the separator is one piece. */
  lemma {:induction false} SplitNoSeparator(s: string, sep: char, current: string)
    requires sep !in s
    ensures SplitFrom(s, sep, current) == [current + s]
    decreases |s|
  {
    if |s| > 0 {
      assert s[0] in s && s[0] != sep;
      assert sep !in s[1..];
      assert current + s == (current + [s[0]]) + s[1..];
      SplitNoSeparator(s[1..], sep, current + [s[0]]);
    } else {
      assert current + s == current;
    }
  }

  /** Splitting at a separator splits the two sides independently. */
  lemma {:induction false} SplitAtSeparator(a: string, sep: char, b: string, current: string)
    ensures SplitFrom(a + [sep] + b, sep, current) == SplitFrom(a, sep, current) + Split(b, sep)
    decreases |a|
  {
    if |a| == 0 {
      assert (a + [sep] + b)[1..] == b;
    } else {
      assert (a + [sep] + b)[1..] == a[1..] + [sep] + b;
      if a[0] == sep {
        SplitAtSeparator(a[1..], sep, b, "");
      } else {
        SplitAtSeparator(a[1..], sep, b, current + [a[0]]);
      }
    }
  }

  /** `Array.prototype.join(sep)`. */
  function Join(parts: seq<string>, sep: string): (s: string)
    ensures |parts| == 1 ==> s == parts[0]
    decreases |parts|
  {
    if |parts| == 0 then ""
    else if |parts| == 1 then parts[0]
    else Join(parts[..|parts| - 1], sep) + sep + parts[|parts| - 1]
  }

  lemma {:induction false} JoinSnoc(parts: seq<string>, x: string, sep: string)
    requires |parts| > 0
    ensures Join(parts + [x], sep) == Join(parts, sep) + sep + x
  {
    assert (parts + [x])[..|parts|] == parts;
  }
}

=== FILE: vocabulary.dfy ===
/** The filter vocabularies of the scoreboard page: `uniqueSorted`, which turns the values
    of one categorical field into the distinct, non-empty, sorted options of a dropdown. */
module Vocabulary {
  import opened Wrappers
  import opened Seqs
  import opened Strings
  import opened Records

  /** Ascending in the default `sort()` order (equal neighbours allowed). */
  predicate Sorted(s: seq<string>) {
    forall i, j :: 0 <= i < j < |s| ==> !LexLess(s[j], s[i])
  }

  /** Strictly ascending, hence free of duplicates. */
  predicate StrictlySorted(s: seq<string>) {
    forall i, j :: 0 <= i < j < |s| ==> LexLess(s[i], s[j])
  }

  /** Appending an element no smaller than the last keeps a sequence sorted. */
  lemma {:induction false} AppendKeepsSorted(s: seq<string>, x: string)
    requires Sorted(s) && |s| > 0 && !LexLess(x, s[|s| - 1])
    ensures Sorted(s + [x])
  {
    var last := s[|s| - 1];
    forall i | 0 <= i < |s|
      ensures !LexLess(x, s[i])
    {
      if x != last {
        LexLessTotal(x, last);
        if LexLess(x, s[i]) {
          LexLessTransitive(last, x, s[i]);
        }
      }
    }
  }

  /** Appending an element no element is above keeps a sequence sorted. */
  lemma {:induction false} AppendMaxKeepsSorted(s: seq<string>, x: string)
    requires Sorted(s) && forall y :: y in s ==> !LexLess(x, y)
    ensures Sorted(s + [x])
  {
  }

  /** Inserts `x` into a sorted sequence after every element it is not below. */
  function Insert(s: seq<string>, x: string): (r: seq<string>)
    requires Sorted(s)
    ensures Sorted(r)
    ensures multiset(r) == multiset(s) + multiset{x}
    ensures NoDup(s) && x !in s ==> NoDup(r)
    decreases |s|
  {
    if |s| == 0 then [x]
    else
      var init, last := s[..|s| - 1], s[|s| - 1];
      assert s == init + [last];
      if LexLess(x, last) then
        var r := Insert(init, x);
        InsertBelowLast(init, last, x, r);
        r + [last]
      else
        AppendKeepsSorted(s, x);
        s + [x]
  }

  /** The recursive case of `Insert`: `x` went into the prefix, and the last element still
      closes the sequence. */
  lemma {:induction false} InsertBelowLast(init: seq<string>, last: string, x: string, r: seq<string>)
    requires Sorted(init + [last]) && LexLess(x, last)
    requires Sorted(r) && multiset(r) == multiset(init) + multiset{x}
    requires NoDup(init + [last]) && x !in init + [last] ==> NoDup(r)
    ensures Sorted(r + [last])
    ensures NoDup(init + [last]) && x !in init + [last] ==> NoDup(r + [last])
  {
    var s := init + [last];
    assert forall y :: y in r ==> y in init || y == x by {
      assert forall y :: y in r ==> y in multiset(r);
    }
    forall y | y in init
      ensures !LexLess(last, y)
    {
      var k :| 0 <= k < |init| && init[k] == y;
      assert s[k] == y && s[|init|] == last;
    }
    LexLessAsymmetric(x, last);
    AppendMaxKeepsSorted(r, last);
    if NoDup(s) && x !in s {
      forall k | 0 <= k < |init|
        ensures init[k] != last
      {
        assert s[k] == init[k] && s[|init|] == last;
      }
      assert last !in r;
    }
  }

  /** `Array.prototype.sort()` on strings: a sorted permutation of the input. */
  function SortStrings(s: seq<string>): (r: seq<string>)
    ensures Sorted(r)
    ensures multiset(r) == multiset(s)
    ensures NoDup(s) ==> NoDup(r)
    decreases |s|
  {
    if |s| == 0 then []
    else
      var init, last := s[..|s| - 1], s[|s| - 1];
      assert s == init + [last];
      var r := SortStrings(init);
      assert last in multiset(r) <==> last in init;
      Insert(r, last)
  }

  /** `.filter(Boolean)` on field values: drops absent values and the empty string. */
  function Truthy(values: seq<Option<string>>): (r: seq<string>)
    ensures forall v :: v in r <==> Some(v) in values && v != ""
    ensures NoDup(values) ==> NoDup(r)
    decreases |values|
  {
    if |values| == 0 then []
    else
      var init, last := values[..|values| - 1], values[|values| - 1];
      assert values == init + [last];
      var r := Truthy(init);
      if last.Some? && last.value != "" then r + [last.value] else r
  }

  /** A sorted sequence without duplicates is strictly sorted. */
  lemma {:induction false} SortedNoDupIsStrict(s: seq<string>)
    requires Sorted(s) && NoDup(s)
    ensures StrictlySorted(s)
  {
    forall i, j | 0 <= i < j < |s|
      ensures LexLess(s[i], s[j])
    {
      LexLessTotal(s[i], s[j]);
    }
  }

  /** `uniqueSorted(values)`: `[...new Set(values)].filter(Boolean).sort()`. The result is
      strictly ascending (so free of duplicates) and holds exactly the non-empty values. */
  function UniqueSorted(values: seq<Option<string>>): (r: seq<string>)
    ensures StrictlySorted(r)
    ensures NoDup(r)
    ensures forall v :: v in r <==> Some(v) in values && v != ""
  {
    var t := Truthy(Distinct(values));
    var r := SortStrings(t);
    assert forall v :: v in r <==> v in multiset(t);
    SortedNoDupIsStrict(r);
    r
  }

  /** Two strictly ascending sequences with the same elements are equal. */
  lemma {:induction false} StrictlySortedUnique(a: seq<string>, b: seq<string>)
    requires StrictlySorted(a) && StrictlySorted(b)
    requires forall v :: v in a <==> v in b
    ensures a == b
    decreases |a|
  {
    if |a| > 0 {
      assert a[0] in b;
      assert b[0] in a;
      if a[0] != b[0] {
        var k :| 0 <= k < |b| && b[k] == a[0];
        var m :| 0 <= m < |a| && a[m] == b[0];
        LexLessAsymmetric(b[0], a[0]);
      }
      StrictTail(a);
      StrictTail(b);
      StrictlySortedUnique(a[1..], b[1..]);
      assert a == [a[0]] + a[1..] && b == [b[0]] + b[1..];
    } else {
      FirstIsMember(b);
    }
  }

  lemma {:induction false} FirstIsMember(s: seq<string>)
    ensures |s| > 0 ==> s[0] in s
  {
  }

  /** The tail of a strictly ascending sequence is the rest of its elements. */
  lemma {:induction false} StrictTail(s: seq<string>)
    requires StrictlySorted(s) && |s| > 0
    ensures StrictlySorted(s[1..])
    ensures forall v :: v in s[1..] <==> v in s && v != s[0]
  {
    forall v | v in s[1..]
      ensures v != s[0]
    {
      var m :| 0 <= m < |s[1..]| && s[1..][m] == v;
      assert s[m + 1] == v;
      LexLessIrreflexive(s[0]);
    }
    assert s == [s[0]] + s[1..];
  }

  /** The dropdown depends only on which non-empty values occur, not on record order or
      repetition. */
  lemma {:induction false} UniqueSortedDependsOnlyOnValues(xs: seq<Option<string>>, ys: seq<Option<string>>)
    requires forall v :: Some(v) in xs && v != "" <==> Some(v) in ys && v != ""
    ensures UniqueSorted(xs) == UniqueSorted(ys)
  {
    StrictlySortedUnique(UniqueSorted(xs), UniqueSorted(ys));
  }

  /** Reordering the records does not change a dropdown. */
  lemma {:induction false} UniqueSortedPermutationInvariant(xs: seq<Option<string>>, ys: seq<Option<string>>)
    requires multiset(xs) == multiset(ys)
    ensures UniqueSorted(xs) == UniqueSorted(ys)
  {
    assert forall v :: v in xs <==> v in multiset(ys);
    UniqueSortedDependsOnlyOnValues(xs, ys);
  }

  /** The task dropdown: `uniqueSorted(data.map(d => d.task))`. */
  function TaskOptions(data: seq<Record>): (opts: seq<string>)
    ensures StrictlySorted(opts)
    ensures forall t :: t in opts <==> t != "" && exists r :: r in data && r.task == Some(t)
  {
    var values := seq(|data|, i requires 0 <= i < |data| => data[i].task);
    assert forall t :: Some(t) in values <==> exists r :: r in data && r.task == Some(t) by {
      forall t | exists r :: r in data && r.task == Some(t)
        ensures Some(t) in values
      {
        var r :| r in data && r.task == Some(t);
        var i :| 0 <= i < |data| && data[i] == r;
        assert values[i] == Some(t);
      }
    }
    UniqueSorted(values)
  }

  /** `d.config?.blocking`: absent when the config object is. */
  function BlockingValue(r: Record): Option<string> {
    if r.config.Some? then r.config.value.blocking else None
  }

  /** The blocking dropdown: `uniqueSorted(data.map(d => d.config?.blocking))`. */
  function BlockingOptions(data: seq<Record>): (opts: seq<string>)
    ensures StrictlySorted(opts)
    ensures forall b :: b in opts <==> b != "" && exists r :: r in data && BlockingValue(r) == Some(b)
  {
    var values := seq(|data|, i requires 0 <= i < |data| => BlockingValue(data[i]));
    assert forall b :: Some(b) in values <==> exists r :: r in data && BlockingValue(r) == Some(b) by {
      forall b | exists r :: r in data && BlockingValue(r) == Some(b)
        ensures Some(b) in values
      {
        var r :| r in data && BlockingValue(r) == Some(b);
        var i :| 0 <= i < |data| && data[i] == r;
        assert values[i] == Some(b);
      }
    }
    UniqueSorted(values)
  }
}

=== FILE: wrappers.dfy ===
/** Optional values: the model's explicit stand-in for JavaScript's `undefined`/`null`
    and for Python's missing dictionary keys. */
module Wrappers {

  datatype Option<+T> = None | Some(value: T) {

    /** Returns the value held in Some, or `default` when absent (JavaScript `x || default`
        for values that are never falsy when present). */
    function GetOr(default: T): T {
      match this
      case Some(v) => v
      case None => default
    }
  }
}
